=== FILE: README.md ===
# restframework-definable-serializer, modelled in Dafny

A model of the core of `definable_serializer`. This Django REST framework
add-on compiles a serializer class from a definition document (parsed JSON or
YAML). The model covers:

- **the compiler** (`definable_serializer/serializers.py`):
  - the structural pre-check;
  - the three-stage lookup of field classes: framework registry, depending
    serializers built so far, dotted path;
  - the refusal of list, dict and method fields;
  - building validators and calling field constructors;
  - the hook policy (`allow_validate_method`) and the parsing of hook source;
  - the assembly of the class namespace (fields, `validate_<field>` hooks,
    `validate`);
  - building the depending serializers in declared order before `main`.
- **the database field** that stores a document (`models/fields.py`). Its
  constructor takes the hook policy out of the options, and `clean` accepts a
  document only if it compiles under that policy.
- **the model accessors** `get_<field>_serializer_class`:
  - `models/__init__.py`, which installs one accessor per definable field
    through a private name recognised by the pattern
    `^__get_(.*)_serializer_class$`;
  - `models/core.py`, the earlier scheme, in which every name of the shape
    `get_<name>_serializer_class` is recognised lazily.

  The pattern match models Python's `re.match` exactly, including the
  greedy capture and the `$` anchor accepting one trailing newline.
- **the extra form fields** (`extra_fields/__init__.py` and their earlier
  copies in `extra_fields/core.py`): the options each passes to its base field
  and the values each rejects after the base conversion.
- **the naming of the generated API document** (`renderers.py`):
  `camel_to_sneak` and the `get_api_name` / `get_version` overrides.

Python's own semantics are written out wherever the code relies on them:

- truthiness;
- `a or b`;
- `x == False` (true for `False`, `0` and `0.0`);
- `!= None`;
- dictionary update, where the last write wins. Insertion order is modelled
  only where a result depends on it: the leftover loop variable of the
  field-hook loop.

What the host provides is an explicit `Env` of oracles:

- the framework's field registry;
- `pydoc.locate`;
- whether a constructor call raises;
- what executing hook source binds.

Every result is stated for all oracles.

Where the project's written specification and the code differ, the model
follows the code:

- For a field hook, the deprecated `validate_method` key wins over
  `field_validate_method` when it is truthy. The newer key wins only at
  serializer level.
- This revision of the compiler has no translation resolution and takes no
  base classes.
- Errors are keyed by field name, or by nothing, never by serializer name.
- A hook key holding an explicit `null` counts as absent for the hook
  policy, because the code tests `!= None`.

## Model

| member | source | states |
|---|---|---|
| PreCheck.CheckFields | definable_serializer/serializers.py:230-237 | passes exactly when every field has `name` and `field`; otherwise reports the first bad field, and for it `name` before `field` |
| PreCheck.CheckSerializer | definable_serializer/serializers.py:239-248 | passes exactly on a well-formed serializer; a missing `name` is reported before a missing `fields`, and both before any field error |
| PreCheck.CheckSerializers | definable_serializer/serializers.py:255-257 | passes exactly when all depending serializers are well formed; otherwise the error is that of the first malformed one |
| PreCheck.CheckDoc | definable_serializer/serializers.py:228-257 | passes exactly on well-formed documents; a missing `main` always gives the "no main" error; `main` is checked before the depending serializers; no structural error carries a field key |
| Resolve.ResolveFieldClass | definable_serializer/serializers.py:60-74 | nothing is found exactly when all three stages miss; otherwise the first stage that finds something decides |
| Resolve.BuildValidator | definable_serializer/serializers.py:85-104 | succeeds exactly when the `validator` key is present, its path resolves, and the constructor does not raise; the result is that constructor call; an unresolvable path gives "cannot import" under the field's name |
| Resolve.BuildValidators | definable_serializer/serializers.py:81-106 | succeeds exactly when every validator builds, giving them in declaration order; a failure is that of the first failing validator |
| Traverse.MapUntilFailure | definable_serializer/serializers.py:85-104 | the shape of every "build each or raise" loop: succeeds exactly when the step succeeds on every element, with results in order; otherwise fails with the first failure, all earlier steps having succeeded |
| Resolve.ParseValidateMethod | definable_serializer/serializers.py:44-58 | accepts hook source exactly when executing it binds `validate_method` to a function, and returns that function; a binding to a non-function fails with "Not a function" |
| Compiler.HookStepFor | definable_serializer/serializers.py:144-164 | under a disallowing policy, any non-null source is refused before it is executed; otherwise a falsy source means no hook, and a truthy one is installed exactly when it parses |
| Compiler.FloatHookValues | definable_serializer/serializers.py:150-164 | a `0.0` policy compares equal to `False` and disallows hooks; a `0.0` source is not `None`, so it is refused under that policy, and is falsy, so it is ignored otherwise; a non-zero float source is installed exactly when `exec` of it binds a function |
| Compiler.FieldKwargs | definable_serializer/serializers.py:112-131 | the constructor receives the definition's keyword arguments; when validators were built, they replace any `validators` the definition gave |
| Compiler.BuildField | definable_serializer/serializers.py:108-164 | every failure is keyed by the field's name, except a validator entry without `validator`; an unresolvable type and a refused class give their errors; a built field records the resolved class, the definition's arguments and the built validators; a hook is present exactly when the hook source is truthy, and it is what that source binds; when it builds, and the constructor and hook errors, are stated by `Compiler.BuildFieldOutcome` |
| Compiler.BuildFieldOutcome | definable_serializer/serializers.py:108-164 | a field builds exactly when its class resolves to an available one, its validators build, its constructor does not raise and its hook is absent or installed; a validator failure passes through; a raising constructor, a refused hook and an unparsable hook each give their error under the field's name; a built field is the constructor call with the definition's arguments and the built validators, with the installed hook |
| Compiler.BuildParts | definable_serializer/serializers.py:108-166 | all fields build, in order, exactly when each one does; otherwise the error is that of the first failing field |
| Compiler.HookKeyInjective | definable_serializer/serializers.py:188-190 | distinct fields install their hooks under distinct `validate_<field>` names, none of them `validate` |
| Compiler.Collect | definable_serializer/serializers.py:131-159 | the field mapping has exactly the built field names; the hook mapping has exactly `validate_<f>` for the fields that have hooks |
| Compiler.CollectKeepsLastField | definable_serializer/serializers.py:131 | of fields sharing a name, the last one defined is kept |
| Compiler.CollectKeepsLastHook | definable_serializer/serializers.py:157-159 | of hooked fields sharing a name, the last one's hook is kept, even if a later unhooked field of that name follows |
| Compiler.Assemble | definable_serializer/serializers.py:184-214 | the namespace holds the fields, then the field hooks, then `validate`, each later entry overriding an earlier one of the same name |
| Compiler.BuildSerializer | definable_serializer/serializers.py:172-222 | a built class has the definition's name; the full outcome is `Compiler.BuildSerializerOutcome`. This is the corrected builder: an unparsable serializer hook is reported with no field key (see Findings), and `Compile`, `ModelField.Clean` and the accessors all use it |
| Compiler.BuildSerializerOutcome | definable_serializer/serializers.py:181-222 | a class is built exactly when every field builds and the serializer hook is absent or installed; a field failure is the serializer's failure; the namespace is the built fields, then their hooks, then the serializer hook |
| Compiler.BuiltSerializerHasFields | definable_serializer/serializers.py:184-190 | every declared field is in the class namespace, and a field with hook source has its hook under `validate_<field>` |
| Compiler.BuiltSerializerHook | definable_serializer/serializers.py:209-214 | with serializer hook source, the class has `validate`, bound to the function that executing the winning source produced |
| Compiler.DisallowedSerializerHasNoHooks | definable_serializer/serializers.py:150-207 | under a disallowing policy, a serializer builds only if neither it nor any field carries hook source |
| Compiler.SerializerErrorAttribution | definable_serializer/serializers.py:108-166 | an error carrying a field key names a declared field whose own build failed |
| Compiler.SerializerLevelFailureUnkeyed | definable_serializer/serializers.py:206-219 | once all fields have built, a failure (refused or unparsable serializer hook) carries no field key |
| Compiler.BuildDepending | definable_serializer/serializers.py:293-296 | the registry afterwards holds the earlier classes plus each depending serializer under its own name, and nothing else changes |
| Compiler.DependingBuildsEach | definable_serializer/serializers.py:294-296 | the depending serializers all build exactly when each one builds against the registry holding those declared before it |
| Compiler.DependingRegistersLast | definable_serializer/serializers.py:295-296 | the class registered under a name is the one built from the last definition of that name, against the registry of the definitions before it |
| Compiler.DisallowedDependingHaveNoHooks | definable_serializer/serializers.py:264-296 | under a disallowing policy, no depending serializer that built carries hook source |
| Compiler.Compile | definable_serializer/serializers.py:264-304 | a document failing the pre-check fails with the pre-check's error; otherwise a depending serializer's failure is the document's, and the result is exactly `main` built against the registry of all depending serializers |
| Compiler.CompileSucceedsExactly | definable_serializer/serializers.py:286-299 | a document compiles exactly when it is well formed, each depending serializer builds against those declared before it, and `main` builds against all of them |
| Compiler.CompiledMainSeesDepending | definable_serializer/serializers.py:294-299 | in a compiled document, the class returned is `main` built against a registry that holds, under each depending name, the class built from that name's last definition |
| Compiler.DisallowedDocHasNoHooks | definable_serializer/serializers.py:264-304 | under a disallowing policy, a document compiles only if no serializer or field in it carries hook source |
| CompileFacts.UnresolvableFieldFails | definable_serializer/serializers.py:115-124 | a field whose type no stage finds makes its serializer fail |
| CompileFacts.UnresolvableHeadFails | definable_serializer/serializers.py:293-296 | the first depending serializer sees only the classes known beforehand |
| CompileFacts.NoForwardReference | definable_serializer/serializers.py:284-296 | a depending serializer naming a type that is not a framework field, a dotted path, or an earlier depending serializer makes the build fail, even if a later one has that name |
| CompileFacts.UnresolvableMainFieldFails | definable_serializer/serializers.py:298-299 | `main` sees exactly the depending serializers: any other unknown type fails compilation |
| CompileFacts.RefusedFieldRejected | definable_serializer/serializers.py:115-120 | a refused field class (list, dict, method field) in `main`'s first field fails with that field's "not available" error, whatever the policy |
| CompileFacts.WrongArgsRejected | definable_serializer/serializers.py:130-134 | a character field whose constructor raises on the given arguments makes the document fail with that message under the field's name, whatever the hook policy |
| CompileFacts.CharFieldMainBuilds | definable_serializer/serializers.py:172-222 | the one-field character serializer builds to a class `S` whose namespace is exactly that field |
| CompileFacts.CharFieldDocCompiles | definable_serializer/serializers.py:264-304 | the document `{"main": {"name": "S", "fields": [{"name": "n", "field": "CharField"}]}}` compiles to that class under either policy |
| HookAttribution.HookOrder | definable_serializer/serializers.py:157-159 | the field-hook mapping's keys in insertion order: exactly the names of fields with hooks, each once, ordered by the first field of that name that has a hook |
| HookAttribution.LeftoverFieldName | definable_serializer/serializers.py:188-190 | the loop variable after the hook loop: unbound exactly when no field has a hook, otherwise the name of a hooked field whose first hook comes no earlier than any other hooked name's, i.e. the last key of the field-hook mapping in insertion order |
| HookAttribution.BuildSerializerAsWritten | definable_serializer/serializers.py:172-222 | as written, the builder agrees with the corrected one on success, and on every outcome except an unparsable serializer hook |
| HookAttribution.AsWrittenBlamesAHealthyField | definable_serializer/serializers.py:216-219 | as written, that report names a field whose own build succeeded; the corrected builder keys it to no field |
| HookAttribution.AsWrittenLosesTheCause | definable_serializer/serializers.py:188-190 | as written, with no field hooks the parse failure is replaced by an unbound-variable error; the corrected builder reports the cause |
| HookAttribution.AsWrittenWitness | definable_serializer/serializers.py:216-219 | a concrete document (field `a` with a working hook, serializer hook bound to a non-function) blamed on `a` as written, unkeyed when corrected |
| ModelField.NewField | definable_serializer/models/fields.py:53-55 | the policy is the `allow_validate_method` option, defaulting to hooks allowed; every other option goes to the base field unchanged |
| ModelField.Clean | definable_serializer/models/fields.py:57-65 | accepts exactly the documents that clean and then compile under the field's policy, returning the cleaned document; every rejection text starts with "Invalid define Format!: " |
| ModelField.DisallowingFieldRejectsHooks | definable_serializer/models/fields.py:53-65 | a field declared with the policy false rejects every document carrying hook source, even source that would parse |
| AccessorName.Backtrack | definable_serializer/models/__init__.py:11 | the greedy capture backs off one character at a time: it yields the longest capture whose tail matches, and nothing exactly when no length works |
| AccessorName.MatchSome | definable_serializer/models/__init__.py:11 | the pattern `^P(.*)S$` accepts exactly prefix, newline-free capture and suffix, optionally followed by one newline; the capture is that middle part |
| AccessorName.MatchSound | definable_serializer/models/__init__.py:46-49 | every recognised name has that shape around its capture |
| AccessorName.MatchComplete | definable_serializer/models/__init__.py:46-49 | every name of that shape is recognised, with the middle part as its capture |
| AccessorName.RoundTrip | definable_serializer/models/__init__.py:27-29 | an accessor name built from a newline-free field name is recognised, and gives that field name back |
| AccessorName.WrongPrefix | definable_serializer/models/__init__.py:11 | a name without the prefix is never recognised |
| AccessorName.BuildInjective | definable_serializer/models/__init__.py:27 | different field names give different accessor names |
| ModelAccessors.Installed | definable_serializer/models/__init__.py:25-29 | installs exactly the public names of the definable fields, each bound to whatever its private name looks up to |
| ModelAccessors.DefinableFieldHasAccessor | definable_serializer/models/__init__.py:25-52 | every definable field has a public accessor, and it is for that very field |
| ModelAccessors.OtherNamesHaveNoAccessor | definable_serializer/models/__init__.py:46-52 | any other public accessor name is missing: the fallback recognises only private names |
| ModelAccessors.FieldNamed | definable_serializer/models/__init__.py:33 | finds the first field with the name, and nothing exactly when no field has it |
| ModelAccessors.PolicyOf | definable_serializer/models/__init__.py:35 | a field without its own policy compiles with hooks disallowed |
| ModelAccessors.CallAsWritten | definable_serializer/models/__init__.py:38-42 | as written, every call fails: on an existing field with the unexpected `base_classes` keyword, otherwise with "field does not exist" |
| ModelAccessors.Call | definable_serializer/models/__init__.py:31-44 | as intended, a missing field fails; otherwise the call succeeds exactly when the stored document compiles under the field's policy, with that class or that error |
| ModelAccessors.PlainFieldRefusesHooks | definable_serializer/models/__init__.py:35 | a field without its own policy never yields a serializer from a document carrying hook source |
| ModelAccessors.AccessorWitness | definable_serializer/models/__init__.py:38-42 | a concrete model whose accessor is installed, whose as-written call fails, and whose intended call compiles |
| ModelCore.CoreCall | definable_serializer/models/core.py:21-32 | a stored document gives exactly the class it compiles to under the default policy, or its compile error; an ordinary attribute, or a name of the accessor shape, is no document and the compiler raises on it; any other name fails as a missing attribute |
| ModelCore.EveryNameHasAccessor | definable_serializer/models/core.py:26-30 | every newline-free name gets an accessor, even one naming no attribute; the call then reports the missing attribute when the name is neither found nor of the accessor shape |
| ModelCore.UnrecognisedNameMissing | definable_serializer/models/core.py:26-32 | a name the pattern cannot produce is missing |
| ExtraFields.WithCode | definable_serializer/extra_fields/__init__.py:24-37 | the error texts gain the field's code with its text; the base texts for other codes are kept |
| ExtraFields.CheckRequiredOptions | definable_serializer/extra_fields/__init__.py:34-36 | the style is always the single-checkbox template, whatever the caller gave; the other options are kept |
| ExtraFields.CheckRequiredConvert | definable_serializer/extra_fields/__init__.py:28-32 | accepts exactly converted values that are not empty, null or false; those are rejected with "turn it on"; an accepted value is passed through unchanged |
| ExtraFields.CheckRequiredMeansOn | definable_serializer/extra_fields/__init__.py:28-32 | on the values a boolean field converts to, only true is accepted |
| ExtraFields.NewMultipleCheckbox | definable_serializer/extra_fields/__init__.py:51-59 | `required` and `inline` are the field's own (default false); the base field gets neither, but gets a checkbox-list style carrying `inline` |
| ExtraFields.MultipleCheckboxConvert | definable_serializer/extra_fields/__init__.py:61-66 | an empty selection is rejected exactly when a selection is required; anything else converted is kept |
| ExtraFields.BlankLabelTruthy | definable_serializer/extra_fields/__init__.py:87-89 | the blank label is always truthy, so the blank choice always takes it |
| ExtraFields.ChoicesWithBlank | definable_serializer/extra_fields/__init__.py:86-91 | exactly one blank choice is put in front of the caller's choices; its label is the caller's if truthy, else the dashes |
| ExtraFields.ChoiceWithBlankConvert | definable_serializer/extra_fields/__init__.py:96-100 | accepts exactly converted values that are not empty or null; an accepted value is passed through unchanged |
| ExtraFields.BlankChoiceRejected | definable_serializer/extra_fields/__init__.py:86-100 | the blank choice the field adds is never an accepted answer |
| ExtraFields.ChoiceRequiredSetup | definable_serializer/extra_fields/__init__.py:113-122 | creation succeeds exactly when there is a first choice and its value is null; no choices and a non-null first value are distinct errors |
| ExtraFields.ChoiceRequiredConvert | definable_serializer/extra_fields/__init__.py:124-128 | accepts exactly converted values that are not empty, null or false; an accepted value is passed through unchanged |
| ExtraFields.PlaceholderRejected | definable_serializer/extra_fields/__init__.py:117-128 | the placeholder choice of a field that could be created is never an accepted answer |
| ExtraFields.RadioOptions | definable_serializer/extra_fields/__init__.py:137-142 | `inline` is the field's own; the base field gets the radio style carrying it, and the other options unchanged |
| ExtraFields.TextOptions | definable_serializer/extra_fields/__init__.py:151-165 | fails exactly when the caller's style is not a mapping; otherwise the style is the caller's with template, rows and placeholder set, and a placeholder in the caller's style wins over the option |
| ExtraFieldsCore.CoreMultipleCheckbox | definable_serializer/extra_fields/core.py:38-46 | popping the options one after the other configures the field exactly as the keyword parameters of the newer copy do |
| ExtraFieldsCore.CoreRadioOptions | definable_serializer/extra_fields/core.py:83-89 | the same agreement for the radio field |
| ExtraFieldsCore.NonNullableConvert | definable_serializer/extra_fields/core.py:70-74 | the same rule as the newer choice-with-blank field: accepts exactly converted values that are not empty or null; an accepted value is passed through unchanged |
| ExtraFieldsCore.NonNullableVersusChoiceRequired | definable_serializer/extra_fields/core.py:70-74 | the non-nullable choice and the newer choice-required field disagree exactly on the answer false |
| ExtraFieldsCore.CoreTextOptions | definable_serializer/extra_fields/core.py:98-105 | the style is built from `rows` and `placeholder` alone; a caller's style is dropped |
| ExtraFieldsCore.TextAreasAgreeWithoutStyle | definable_serializer/extra_fields/core.py:98-105 | the two text areas agree when the caller gives no style, and differ on the placeholder when the caller's style sets a different one |
| Renderers.CamelToSnakeIsReference | definable_serializer/renderers.py:18-19 | the left-to-right substitution equals the pointwise reading: an underscore before every capital that follows a lower-case letter or digit, no boundary skipped |
| Renderers.ReferenceLength | definable_serializer/renderers.py:18-19 | the snake-case name is one character longer per boundary |
| Renderers.ReferenceHasNoCapitals | definable_serializer/renderers.py:18-19 | the snake-case name has no capitals |
| Renderers.ReferenceKeepsLowerCase | definable_serializer/renderers.py:18-19 | a name without capitals is kept as it is |
| Renderers.CamelToSnakeProperties | definable_serializer/renderers.py:18-19 | the conversion has no capitals in its output, adds one character per boundary, and is idempotent |
| Renderers.Choose | definable_serializer/renderers.py:36-38 | an override replaces the default exactly when it returns a non-empty string |
| Renderers.Naming | definable_serializer/renderers.py:31-41 | the API name is the view's snake-case class name unless an override returns a non-empty string, the version is "no-versioning" under the same rule, and the title is the name followed by " API" |
| Renderers.NamingCases | definable_serializer/renderers.py:31-41 | in all three override cases (none, empty, a name) the API name agrees with the reference reading of `camel_to_sneak`; without a usable override it has no capitals and one extra character per boundary |

## Left out

- Reading and parsing JSON or YAML (the `build_serializer_by_*` loaders and the base field's `clean`) is left out. The model starts from the parsed document, and `ModelField.Clean` receives the base cleaning's outcome.
- The host's registry, `pydoc.locate`, constructor calls and `exec` of hook source are oracles in `Env`. What a built field or validator does at validation time belongs to the REST framework, which is not part of this model. `locate` is an optional result: a module that exists but raises while being imported, an exception the code lets escape instead of reporting it as a field error, is not modelled.
- Warnings (the deprecation warnings for `validate_method`, `ChoiceWithBlankField` and `TextField`) are left out: they do not change any result.
- The metaclass machinery (`__prepare__`, `super().__new__`, base classes) is left out. A class is its name and its namespace mapping.
- The order of the fields in a built class is not represented: the namespace is an unordered mapping. The framework orders declared fields by when each field object was created, and that ordering is not modelled.
- `copy.deepcopy` of the field arguments is left out: values are immutable in the model.
- Scalars are null, booleans, integers, strings and floats, with floats as exact reals. Infinities and NaN, and YAML's other tagged scalars (dates, timestamps, binary), have no `Value`, so documents holding them cannot be expressed.
- Document shapes other than mappings, lists and scalars, and wrong types under known keys (a `fields` that is not a list, a `name` that is not a string), are left out. The Python `TypeError`s these raise are not modelled.
- The wrapping of every build error in one more `ValidationError` (serializers.py:301-302) is left out. The model keeps the inner error's key and reason.
- Errors.Message gives each reason's text, but not the document excerpt that the structural messages append, nor Python's rendering of a nested validation error.
- Python's `str.lower` is modelled on ASCII capitals only. Other characters are kept.
- The placeholder error of `ChoiceRequiredField` says a blank first value is allowed, but the code accepts only `None`. The model follows the code. Errors raised by the base `ChoiceField` constructor before that check are not modelled.
- The `CheckRequiredField` of `extra_fields/core.py` (lines 5-24) is the same code as the newer one. It has no members of its own: `ExtraFields.CheckRequiredOptions` and `ExtraFields.CheckRequiredConvert` model both.
- `TextField` mutates the caller's style mapping in place, which is not modelled: the model returns a new mapping with the same contents.
- Model attribute values are assumed to be definition documents. A field whose stored value is not a mapping is not modelled. In the earlier accessor scheme an attribute holding something else gives the single outcome `NotADocument`; which exception the compiler raises on it is not modelled.
- Choices are modelled as a list of (value, label) pairs only. A flat list of values and a mapping of choices, which the framework also accepts, cannot be expressed.
- Compiler.BuildSerializer: its own contract states only the class name. When it builds, and what the namespace holds, are stated by the lemma `Compiler.BuildSerializerOutcome`, so that proofs which merely mention a build do not carry that statement.
- Compiler.BuildField: its own contract does not state when a field builds or what a raising constructor gives; the lemma `Compiler.BuildFieldOutcome` states both, for the same reason.
- ModelAccessors.Call does not pass base classes for the built serializer, because the compiler takes none (see Findings).

## Findings

| source | as written | input that shows it | evidently intended | confidence | as-written member | corrected member |
|---|---|---|---|---|---|---|
| definable_serializer/serializers.py:188-190,216-219 | an unparsable serializer hook is reported under `field_name`, the leftover loop variable of the field-hook loop; with no field hooks the variable is unbound and the report is an `UnboundLocalError` | main serializer with field `a` whose hook parses, and a `serializer_validate_method` binding `validate_method = 1` | report the serializer hook's failure without a field key, keeping its cause | not executed | HookAttribution.AsWrittenWitness | Compiler.SerializerErrorAttribution |
| definable_serializer/models/__init__.py:38-42 | the accessor calls `build_serializer(defn, base_classes=..., allow_validate_method=...)`, but `build_serializer` (serializers.py:264) takes no `base_classes` parameter, so every call on an existing field raises `TypeError` | a model with one definable field storing `{"main": {"name": "S", "fields": [{"name": "n", "field": "CharField"}]}}`; calling `get_<field>_serializer_class()` | compile the stored document under the field's policy | not executed | ModelAccessors.AccessorWitness | ModelAccessors.Call |

=== FILE: accessor_name.dfy ===
/** Recognising accessor attribute names with a pattern of the shape
    `^P(.*)S$` under Python's `re.match`: a literal prefix, a greedy capture of
    any characters except a newline, a literal suffix, and an end anchor that
    also accepts a single newline at the very end of the name. */
module AccessorName {
  import opened Wrappers

  const Newline: char := '\n'

  predicate NewlineFree(g: string) {
    forall i :: 0 <= i < |g| ==> g[i] != Newline
  }

  /** A suffix the end anchor can follow: non-empty and without newlines. */
  predicate PlainSuffix(suffix: string) {
    |suffix| > 0 && NewlineFree(suffix)
  }

  /** Length of the longest newline-free prefix of `s`: how far the greedy
      `.*` first runs. */
  function RunLength(s: string): (n: nat)
    ensures n <= |s| && NewlineFree(s[..n])
    ensures n < |s| ==> s[n] == Newline
  {
    if |s| == 0 || s[0] == Newline then 0
    else
      var n := 1 + RunLength(s[1..]);
      assert s[..n] == [s[0]] + s[1..][..n - 1];
      n
  }

  /** The tail after the capture matches the suffix followed by the end
      anchor. */
  predicate TailMatches(suffix: string, rest: string, n: nat)
    requires n <= |rest|
  {
    rest[n..] == suffix || rest[n..] == suffix + [Newline]
  }

  /** Backtracking the greedy capture one character at a time, from `n` down
      to zero, until the tail matches. */
  function Backtrack(suffix: string, rest: string, n: nat): (r: Option<string>)
    requires n <= |rest|
    ensures r.Some? ==> exists k :: 0 <= k <= n && r.value == rest[..k] && TailMatches(suffix, rest, k)
    ensures r.Some? ==> forall k :: |r.value| < k <= n ==> !TailMatches(suffix, rest, k)
    ensures r.None? <==> forall k :: 0 <= k <= n ==> !TailMatches(suffix, rest, k)
  {
    if TailMatches(suffix, rest, n) then Some(rest[..n])
    else if n == 0 then None
    else Backtrack(suffix, rest, n - 1)
  }

  /** `re.match("^" + prefix + "(.*)" + suffix + "$", s)`, giving group 1. */
  function Match(prefix: string, suffix: string, s: string): Option<string> {
    if |s| < |prefix| || s[..|prefix|] != prefix then None
    else
      var rest := s[|prefix|..];
      Backtrack(suffix, rest, RunLength(rest))
  }

  /** The accessor name built from a captured name. */
  function Build(prefix: string, g: string, suffix: string): string {
    prefix + g + suffix
  }

  /** The newline cannot be dropped from the end of a plain suffix. */
  lemma NoShiftedSuffix(suffix: string)
    requires PlainSuffix(suffix)
    ensures (suffix + [Newline])[1..] != suffix
  {
    var t := (suffix + [Newline])[1..];
    assert |t| == |suffix| && t[|t| - 1] == Newline;
    assert suffix[|suffix| - 1] != Newline;
  }

  /** Every name of the accepted shape is recognised, with the middle part as
      the capture. */
  lemma MatchComplete(prefix: string, suffix: string, s: string, g: string)
    requires PlainSuffix(suffix) && NewlineFree(g)
    requires s == prefix + g + suffix || s == prefix + g + suffix + [Newline]
    ensures Match(prefix, suffix, s) == Some(g)
  {
    assert s[..|prefix|] == prefix;
    var rest := s[|prefix|..];
    assert rest == g + suffix || rest == g + suffix + [Newline];
    assert rest[..|g|] == g;
    var run := RunLength(rest);
    assert run >= |g|;
    assert TailMatches(suffix, rest, |g|);
    forall k | |g| < k <= run
      ensures !TailMatches(suffix, rest, k)
    {
      if rest == g + suffix + [Newline] && k == |g| + 1 {
        NoShiftedSuffix(suffix);
        assert rest[k..] == (suffix + [Newline])[1..];
      }
    }
    var r := Backtrack(suffix, rest, run);
    var k :| 0 <= k <= run && r.value == rest[..k] && TailMatches(suffix, rest, k);
    assert k == |g|;
  }

  lemma Regroup(a: string, b: string, c: string, d: string)
    ensures a + b + c + d == a + (b + (c + d))
  {
  }

  /** A recognised name is the prefix followed by a remainder whose first
      `k` characters are the newline-free capture and whose tail matches. */
  lemma MatchShape(prefix: string, suffix: string, s: string) returns (rest: string, k: nat)
    requires Match(prefix, suffix, s).Some?
    ensures s == prefix + rest && k <= |rest|
    ensures Match(prefix, suffix, s).value == rest[..k]
    ensures NewlineFree(rest[..k]) && TailMatches(suffix, rest, k)
  {
    rest := s[|prefix|..];
    var run := RunLength(rest);
    k :| 0 <= k <= run && Match(prefix, suffix, s).value == rest[..k] && TailMatches(suffix, rest, k);
    assert forall i :: 0 <= i < k ==> rest[..k][i] == rest[..run][i];
  }

  /** Every recognised name has the accepted shape around its capture. */
  lemma MatchSound(prefix: string, suffix: string, s: string)
    requires Match(prefix, suffix, s).Some?
    ensures var g := Match(prefix, suffix, s).value;
            NewlineFree(g) && (s == prefix + g + suffix || s == prefix + g + suffix + [Newline])
  {
    var rest, k := MatchShape(prefix, suffix, s);
    var g := rest[..k];
    assert rest == g + rest[k..];
    if rest[k..] == suffix {
      assert prefix + g + suffix == prefix + (g + suffix);
    } else {
      Regroup(prefix, g, suffix, [Newline]);
    }
  }

  /** What the pattern accepts: exactly the names made of the prefix, a
      newline-free capture and the suffix, optionally followed by one newline;
      and the capture is that middle part. */
  lemma MatchSome(prefix: string, suffix: string, s: string, g: string)
    requires PlainSuffix(suffix)
    ensures Match(prefix, suffix, s) == Some(g) <==>
            NewlineFree(g) && (s == prefix + g + suffix || s == prefix + g + suffix + [Newline])
  {
    if NewlineFree(g) && (s == prefix + g + suffix || s == prefix + g + suffix + [Newline]) {
      MatchComplete(prefix, suffix, s, g);
    }
    if Match(prefix, suffix, s) == Some(g) {
      MatchSound(prefix, suffix, s);
    }
  }

  /** Round trip: an accessor name built from a newline-free name is
      recognised, and the capture gives the name back. */
  lemma RoundTrip(prefix: string, suffix: string, g: string)
    requires PlainSuffix(suffix) && NewlineFree(g)
    ensures Match(prefix, suffix, Build(prefix, g, suffix)) == Some(g)
  {
    MatchSome(prefix, suffix, Build(prefix, g, suffix), g);
  }

  /** A name that does not start with the prefix is never recognised. */
  lemma WrongPrefix(prefix: string, suffix: string, s: string)
    requires |s| < |prefix| || s[..|prefix|] != prefix
    ensures Match(prefix, suffix, s).None?
  {
  }

  /** Different names give different accessor names. */
  lemma BuildInjective(prefix: string, suffix: string, g1: string, g2: string)
    requires Build(prefix, g1, suffix) == Build(prefix, g2, suffix)
    ensures g1 == g2
  {
    var s := Build(prefix, g1, suffix);
    assert |g1| == |g2|;
    assert g1 == s[|prefix|..|prefix| + |g1|];
    assert g2 == s[|prefix|..|prefix| + |g2|];
  }
}

=== FILE: compile_facts.dfy ===
/** Facts about whole-document compilation: which references resolve, which
    field classes are refused, and a small document that compiles. */
module CompileFacts {
  import opened Wrappers
  import opened Document
  import opened Runtime
  import opened Errors
  import opened PreCheck
  import opened Resolve
  import opened Compiler

  /** Building one serializer fails when one of its fields names a type that
      no lookup stage can find. */
  lemma UnresolvableFieldFails(env: Env, classes: map<string, SerializerClass>, allow: Value, s: SerDefn, j: int)
    requires SerializerWellFormed(s) && 0 <= j < |s.fields.value|
    requires ResolveFieldClass(env, classes, s.fields.value[j].field.value).None?
    ensures BuildSerializer(env, classes, allow, s).Failure?
  {
    assert BuildField(env, classes, allow, s.fields.value[j]).Failure?;
  }

  /** The first depending serializer sees only the classes known beforehand. */
  lemma UnresolvableHeadFails(env: Env, allow: Value, deps: seq<SerDefn>, classes: map<string, SerializerClass>,
                              j: int, t: string)
    requires AllSerializersWellFormed(deps) && |deps| > 0 && 0 <= j < |deps[0].fields.value|
    requires deps[0].fields.value[j].field == Some(t)
    requires env.registry(t).None? && env.locate(t).None? && t !in classes
    ensures BuildDepending(env, allow, deps, classes).Failure?
  {
    assert ResolveFieldClass(env, classes, t).None?;
    UnresolvableFieldFails(env, classes, allow, deps[0], j);
    DependingStep(env, allow, deps, classes);
  }

  /** No depending serializer before position `i` is called `t`. */
  predicate NoneNamedBefore(deps: seq<SerDefn>, i: int, t: string)
    requires AllSerializersWellFormed(deps) && 0 <= i <= |deps|
  {
    forall k :: 0 <= k < i ==> deps[k].name.value != t
  }

  lemma NoneNamedBeforeTail(deps: seq<SerDefn>, i: int, t: string)
    requires AllSerializersWellFormed(deps) && 0 < i <= |deps| && NoneNamedBefore(deps, i, t)
    ensures AllSerializersWellFormed(deps[1..]) && NoneNamedBefore(deps[1..], i - 1, t)
    ensures deps[0].name.value != t
  {
    assert forall k :: 0 <= k < |deps| - 1 ==> deps[1..][k] == deps[k + 1];
  }

  /** A successful build of the depending serializers continues from the
      class built for the first one. */
  lemma DependingHead(env: Env, allow: Value, deps: seq<SerDefn>, classes: map<string, SerializerClass>)
    returns (c: SerializerClass)
    requires AllSerializersWellFormed(deps) && |deps| > 0
    requires BuildDepending(env, allow, deps, classes).Success?
    ensures BuildDepending(env, allow, deps, classes) == BuildDepending(env, allow, deps[1..], classes[deps[0].name.value := c])
  {
    DependingStep(env, allow, deps, classes);
    c := BuildSerializer(env, classes, allow, deps[0]).value;
  }

  /** The hypotheses of the forward-reference lemma carry over from `deps`
      to its tail, once the head is registered under its name. */
  lemma ForwardReferenceTail(env: Env, deps: seq<SerDefn>, classes: map<string, SerializerClass>,
                             c: SerializerClass, i: int, j: int, t: string)
    requires AllSerializersWellFormed(deps) && 0 < i < |deps| && 0 <= j < |deps[i].fields.value|
    requires deps[i].fields.value[j].field == Some(t)
    requires t !in classes && NoneNamedBefore(deps, i, t)
    ensures AllSerializersWellFormed(deps[1..]) && 0 <= i - 1 < |deps[1..]|
    ensures 0 <= j < |deps[1..][i - 1].fields.value| && deps[1..][i - 1].fields.value[j].field == Some(t)
    ensures t !in classes[deps[0].name.value := c] && NoneNamedBefore(deps[1..], i - 1, t)
  {
    NoneNamedBeforeTail(deps, i, t);
    assert deps[1..][i - 1] == deps[i];
  }

  /** A depending serializer can refer only to serializers declared before it:
      a field of `deps[i]` whose type is neither a framework field, nor a
      dotted path, nor a class already known, nor the name of an earlier
      depending serializer, makes the build fail, even if a later one is
      called that. */
  lemma {:induction false} NoForwardReference(env: Env, allow: Value, deps: seq<SerDefn>,
                                              classes: map<string, SerializerClass>, i: int, j: int, t: string)
    requires AllSerializersWellFormed(deps) && 0 <= i < |deps| && 0 <= j < |deps[i].fields.value|
    requires deps[i].fields.value[j].field == Some(t)
    requires env.registry(t).None? && env.locate(t).None? && t !in classes && NoneNamedBefore(deps, i, t)
    ensures BuildDepending(env, allow, deps, classes).Failure?
    decreases i
  {
    if i == 0 {
      UnresolvableHeadFails(env, allow, deps, classes, j, t);
    } else if BuildDepending(env, allow, deps, classes).Success? {
      var c := DependingHead(env, allow, deps, classes);
      ForwardReferenceTail(env, deps, classes, c, i, j, t);
      NoForwardReference(env, allow, deps[1..], classes[deps[0].name.value := c], i - 1, j, t);
    }
  }

  /** The main serializer sees exactly the depending serializers: a field type
      that is neither a framework field, nor a dotted path, nor the name of a
      depending serializer makes compilation fail. */
  lemma UnresolvableMainFieldFails(env: Env, d: Doc, allow: Value, j: int)
    requires WellFormed(d) && 0 <= j < |d.main.value.fields.value|
    requires var t := d.main.value.fields.value[j].field.value;
             && env.registry(t).None? && env.locate(t).None?
             && NoneNamedBefore(d.depending, |d.depending|, t)
    ensures Compile(env, d, allow).Failure?
  {
    var r := BuildDepending(env, allow, d.depending, map[]);
    if r.Success? {
      var t := d.main.value.fields.value[j].field.value;
      assert t !in NamesOf(d.depending);
      assert ResolveFieldClass(env, r.value, t).None?;
      UnresolvableFieldFails(env, r.value, allow, d.main.value, j);
    }
  }

  /** The three refused field classes, by the names the framework registers
      them under. */
  predicate RefusedName(t: string) {
    t == "ListField" || t == "DictField" || t == "SerializerMethodField"
  }

  /** A document whose main serializer's first field uses a refused field class
      is rejected with that field's "not available" error, whatever the other
      fields and the hook policy are. */
  lemma RefusedFieldRejected(env: Env, d: Doc, allow: Value)
    requires KnowsRefusedFields(env)
    requires WellFormed(d) && d.depending == []
    requires |d.main.value.fields.value| > 0 && RefusedName(d.main.value.fields.value[0].field.value)
    ensures Compile(env, d, allow)
            == Failure(CompileError(d.main.value.fields.value[0].name, FieldNotAvailable(d.main.value.fields.value[0].field.value)))
  {
    var fds := d.main.value.fields.value;
    assert NotAvailable(ResolveFieldClass(env, map[], fds[0].field.value).value);
    var e := BuildField(env, map[], allow, fds[0]);
    assert e.Failure?;
    var r := BuildParts(env, map[], allow, fds);
    var i :| 0 <= i < |fds| && (forall j :: 0 <= j < i ==> BuildField(env, map[], allow, fds[j]).Success?)
             && BuildField(env, map[], allow, fds[i]) == Failure(r.error);
    assert i == 0;
  }

  const CharField: Callable := External("rest_framework.fields.CharField")

  /** `{"name": "S", "fields": [{"name": "n", "field": "CharField"}]}` */
  const CharFieldMain: SerDefn :=
    SerDefn(Some("S"), Some([FieldDefn(Some("n"), Some("CharField"), [], map[], [], VNone, VNone)]), VNone, VNone)

  /** `{"main": {"name": "S", "fields": [{"name": "n", "field": "CharField"}]}}` */
  const CharFieldDoc: Doc := Doc(Some(CharFieldMain), [])

  /** The class the one-field document compiles to. */
  const CharFieldClass: SerializerClass := SerializerClass("S", map["n" := FieldAttr(Instance(CharField, [], map[], []))])

  lemma CharFieldMainBuilds(env: Env, allow: Value, s: SerDefn)
    requires env.registry("CharField") == Some(CharField)
    requires env.construct(CharField, [], map[], []) == None
    requires s == CharFieldMain
    ensures BuildSerializer(env, map[], allow, s) == Success(CharFieldClass)
  {
    var fd := s.fields.value[0];
    assert BuildValidators(env, "n", []) == Success([]);
    assert FieldKwargs(fd, []) == map[];
    var part := FieldPart("n", Instance(CharField, [], map[], []), None);
    assert BuildField(env, map[], allow, fd) == Success(part);
    var r := BuildParts(env, map[], allow, s.fields.value);
    assert r.Success? && r.value[0] == part;
    assert r.value == [part];
    var b := Collect([part]);
    assert b.fields == map["n" := FieldAttr(Instance(CharField, [], map[], []))];
    assert b.hooks == map[];
    assert HookStepFor(env, allow, SerializerHookSource(s)) == NoHook;
    var c := Assemble("S", b, None);
    assert c.namespace.Keys == {"n"};
    assert c == CharFieldClass;
  }

  /** With the framework's character field available and constructible
      without arguments, the one-field document compiles to a class `S` whose
      only attribute is that field, under either hook policy. */
  lemma CharFieldDocCompiles(env: Env, allow: Value, d: Doc)
    requires env.registry("CharField") == Some(CharField)
    requires env.construct(CharField, [], map[], []) == None
    requires d == CharFieldDoc
    ensures Compile(env, d, allow) == Success(CharFieldClass)
  {
    CharFieldMainBuilds(env, allow, d.main.value);
    assert CheckDoc(d).Pass?;
    assert BuildDepending(env, allow, d.depending, map[]) == Success(map[]);
  }

  /** A character field given arguments its constructor refuses:
      `{"name": "n", "field": "CharField", "field_args": [args]}`. */
  function WrongArgsMain(args: seq<Value>): SerDefn {
    SerDefn(Some("S"), Some([FieldDefn(Some("n"), Some("CharField"), args, map[], [], VNone, VNone)]), VNone, VNone)
  }

  /** When the constructor raises on the given arguments, the document is
      rejected with that message under the field's name, whatever the hook
      policy. */
  lemma WrongArgsRejected(env: Env, allow: Value, args: seq<Value>, d: Doc)
    requires env.registry("CharField") == Some(CharField)
    requires env.construct(CharField, args, map[], []).Some?
    requires d == Doc(Some(WrongArgsMain(args)), [])
    ensures Compile(env, d, allow)
            == Failure(CompileError(Some("n"), ConstructorRaised(env.construct(CharField, args, map[], []).value)))
  {
    var fd := d.main.value.fields.value[0];
    assert BuildValidators(env, "n", []) == Success([]);
    assert FieldKwargs(fd, []) == map[];
    var e := BuildField(env, map[], allow, fd);
    assert e == Failure(CompileError(Some("n"), ConstructorRaised(env.construct(CharField, args, map[], []).value)));
    assert CheckDoc(d).Pass?;
    assert BuildDepending(env, allow, d.depending, map[]) == Success(map[]);
    var r := BuildParts(env, map[], allow, d.main.value.fields.value);
    var i :| 0 <= i < 1 && BuildField(env, map[], allow, d.main.value.fields.value[i]) == Failure(r.error);
    assert i == 0;
  }
}

=== FILE: compiler.dfy ===
/** The schema-to-serializer compiler (definable_serializer/serializers.py,
    `build_serializer` and the metaclass helpers it drives).

    Compilation runs the structural pre-check, then builds every depending
    serializer in declared order, registering each under its name, then builds
    the main serializer and returns it. Building one serializer builds each of
    its fields in order (type lookup, refusal of the forbidden field classes,
    validators, the constructor call, the field hook), then the serializer
    hook, and finally assembles the class namespace. The first failure stops
    everything. */
module Compiler {
  import opened Wrappers
  import opened Document
  import opened Runtime
  import opened Errors
  import opened PreCheck
  import opened Resolve
  import opened Traverse

  /** `build_serializer`'s default for `allow_validate_method`. */
  const DefaultPolicy: Value := VBool(true)

  /** A policy value that switches hooks off: the source tests `== False`. */
  predicate Disallows(allow: Value) {
    EqualsFalse(allow)
  }

  /** A field's hook source: the deprecated `validate_method` key wins over
      `field_validate_method` whenever it is truthy. */
  function FieldHookSource(fd: FieldDefn): Value {
    Or(fd.validateMethod, fd.fieldValidateMethod)
  }

  /** A serializer's hook source: here `serializer_validate_method` wins over
      the deprecated `validate_method` whenever it is truthy. */
  function SerializerHookSource(s: SerDefn): Value {
    Or(s.serializerValidateMethod, s.validateMethod)
  }

  /** What happens to one hook source under a policy. */
  datatype HookStep =
    | NoHook
    | NotAllowed
    | Unparsable(cause: string)
    | Installed(hook: Hook)

  /** The policy gate followed by parsing. A source that is present at all,
      even an empty string, is refused when hooks are disallowed, before it is
      executed; otherwise only a truthy source is parsed. */
  function HookStepFor(env: Env, allow: Value, src: Value): (r: HookStep)
    ensures r == NotAllowed <==> Disallows(allow) && src != VNone
    ensures r == NoHook <==> !Truthy(src) && !(Disallows(allow) && src != VNone)
    ensures r.Installed? <==> !Disallows(allow) && Truthy(src) && ParseValidateMethod(env, src).Success?
    ensures r.Installed? ==> env.exec(src) == Ran(Some(FunctionObject(r.hook)))
    ensures r.Unparsable? ==> ParseValidateMethod(env, src) == Failure(r.cause)
  {
    if Disallows(allow) && src != VNone then NotAllowed
    else if !Truthy(src) then NoHook
    else
      match ParseValidateMethod(env, src)
      case Failure(cause) => Unparsable(cause)
      case Success(h) => Installed(h)
  }

  /** Float values in the hook positions behave as Python's do: a `0.0`
      policy disallows hooks, a `0.0` source is present but falsy, so it is
      refused under that policy and ignored otherwise, and a non-zero source
      is handed to `exec`. */
  lemma FloatHookValues(env: Env, allow: Value, x: real)
    ensures Disallows(VFloat(0.0))
    ensures HookStepFor(env, allow, VFloat(0.0)) == (if Disallows(allow) then NotAllowed else NoHook)
    ensures x != 0.0 && !Disallows(allow) ==>
              (HookStepFor(env, allow, VFloat(x)).Installed? <==> ParseValidateMethod(env, VFloat(x)).Success?)
  {
  }

  /** The document's keyword arguments for a field's constructor. A non-empty
      list of built validators is passed as `validators` instead of whatever
      the definition gave under that key; otherwise the definition's own
      arguments go through untouched. */
  function FieldKwargs(fd: FieldDefn, validators: seq<Instance>): (r: map<string, Value>)
    ensures |validators| > 0 ==> "validators" !in r
    ensures |validators| == 0 ==> r == fd.fieldKwargs
    ensures forall k :: k != "validators" ==> (k in r <==> k in fd.fieldKwargs)
    ensures forall k :: k in r ==> k in fd.fieldKwargs && r[k] == fd.fieldKwargs[k]
  {
    if |validators| > 0 then fd.fieldKwargs - {"validators"} else fd.fieldKwargs
  }

  /** One field, built. */
  datatype FieldPart = FieldPart(name: string, field: Instance, hook: Option<Hook>)

  /** Building one field (one iteration of `_build_fields`). */
  function BuildField(env: Env, classes: map<string, SerializerClass>, allow: Value, fd: FieldDefn)
    : (r: Result<FieldPart, CompileError>)
    requires FieldHasKeys(fd)
    // every failure is reported under this field's name, except a validator
    // entry without its `validator` key
    ensures r.Failure? ==> r.error.key == Some(fd.name.value) || r.error == CompileError(None, NoValidatorKey)
    // the type name resolves, and never to a refused class
    ensures ResolveFieldClass(env, classes, fd.field.value).None? ==>
              r == Failure(CompileError(Some(fd.name.value), FieldClassNotFound(fd.field.value)))
    ensures ResolveFieldClass(env, classes, fd.field.value).Some?
            && NotAvailable(ResolveFieldClass(env, classes, fd.field.value).value) ==>
              r == Failure(CompileError(Some(fd.name.value), FieldNotAvailable(fd.field.value)))
    ensures r.Success? ==> r.value.name == fd.name.value
    ensures r.Success? ==> Some(r.value.field.cls) == ResolveFieldClass(env, classes, fd.field.value)
    // the constructor receives the definition's arguments and the validators
    ensures r.Success? ==> BuildValidators(env, fd.name.value, fd.validators).Success?
    ensures r.Success? ==>
              var validators := BuildValidators(env, fd.name.value, fd.validators).value;
              r.value.field == Instance(r.value.field.cls, fd.fieldArgs, FieldKwargs(fd, validators), validators)
    // the hook policy is checked before the source is executed
    ensures Disallows(allow) && FieldHookSource(fd) != VNone ==>
              r.Failure? && !r.error.reason.FieldValidateMethodUnparsable?
    ensures r.Success? ==> (r.value.hook.Some? <==> Truthy(FieldHookSource(fd)))
    ensures r.Success? && r.value.hook.Some? ==>
              env.exec(FieldHookSource(fd)) == Ran(Some(FunctionObject(r.value.hook.value)))
  {
    var name := fd.name.value;
    var t := fd.field.value;
    var found := ResolveFieldClass(env, classes, t);
    if found.Some? && NotAvailable(found.value) then
      Failure(CompileError(Some(name), FieldNotAvailable(t)))
    else if found.None? then
      Failure(CompileError(Some(name), FieldClassNotFound(t)))
    else
      var validators :- BuildValidators(env, name, fd.validators);
      var kwargs := FieldKwargs(fd, validators);
      match env.construct(found.value, fd.fieldArgs, kwargs, validators)
      case Some(message) => Failure(CompileError(Some(name), ConstructorRaised(message)))
      case None =>
        var field := Instance(found.value, fd.fieldArgs, kwargs, validators);
        match HookStepFor(env, allow, FieldHookSource(fd))
        case NotAllowed => Failure(CompileError(Some(name), ValidateMethodNotAllowed))
        case Unparsable(cause) => Failure(CompileError(Some(name), FieldValidateMethodUnparsable(name, cause)))
        case NoHook => Success(FieldPart(name, field, None))
        case Installed(h) => Success(FieldPart(name, field, Some(h)))
  }

  /** When a field builds and which error it reports, stage by stage: the
      class must resolve to an available one, the validators must build, the
      constructor must not raise, and the hook must be absent or installed.
      Kept apart from `BuildField`'s own contract so that proofs which only
      mention a field build do not carry it. */
  lemma BuildFieldOutcome(env: Env, classes: map<string, SerializerClass>, allow: Value, fd: FieldDefn)
    requires FieldHasKeys(fd)
    ensures var r := BuildField(env, classes, allow, fd);
            var name := fd.name.value;
            var f := ResolveFieldClass(env, classes, fd.field.value);
            var vr := BuildValidators(env, name, fd.validators);
            var step := HookStepFor(env, allow, FieldHookSource(fd));
            && (r.Success? <==>
                  && f.Some? && !NotAvailable(f.value) && vr.Success?
                  && env.construct(f.value, fd.fieldArgs, FieldKwargs(fd, vr.value), vr.value).None?
                  && (step.NoHook? || step.Installed?))
            && (f.Some? && !NotAvailable(f.value) && vr.Failure? ==> r == Failure(vr.error))
            && (f.Some? && !NotAvailable(f.value) && vr.Success?
                && env.construct(f.value, fd.fieldArgs, FieldKwargs(fd, vr.value), vr.value).Some? ==>
                  r == Failure(CompileError(Some(name),
                         ConstructorRaised(env.construct(f.value, fd.fieldArgs, FieldKwargs(fd, vr.value), vr.value).value))))
            && (f.Some? && !NotAvailable(f.value) && vr.Success?
                && env.construct(f.value, fd.fieldArgs, FieldKwargs(fd, vr.value), vr.value).None? ==>
                  && (step.NotAllowed? ==> r == Failure(CompileError(Some(name), ValidateMethodNotAllowed)))
                  && (step.Unparsable? ==> r == Failure(CompileError(Some(name), FieldValidateMethodUnparsable(name, step.cause))))
                  && (r.Success? ==>
                        r.value == FieldPart(name, Instance(f.value, fd.fieldArgs, FieldKwargs(fd, vr.value), vr.value),
                                             if step.Installed? then Some(step.hook) else None)))
  {
  }

  /** Every field built in declared order; the first failure stops the build. */
  function BuildParts(env: Env, classes: map<string, SerializerClass>, allow: Value, fds: seq<FieldDefn>)
    : (r: Result<seq<FieldPart>, CompileError>)
    requires AllFieldsHaveKeys(fds)
    ensures r.Success? <==> forall i :: 0 <= i < |fds| ==> BuildField(env, classes, allow, fds[i]).Success?
    ensures r.Success? ==> |r.value| == |fds|
    ensures r.Success? ==> forall i :: 0 <= i < |fds| ==> r.value[i] == BuildField(env, classes, allow, fds[i]).value
    ensures r.Failure? ==> (exists i :: 0 <= i < |fds|
                              && (forall j :: 0 <= j < i ==> BuildField(env, classes, allow, fds[j]).Success?)
                              && BuildField(env, classes, allow, fds[i]) == Failure(r.error))
  {
    MapUntilFailure((fd: FieldDefn) requires FieldHasKeys(fd) => BuildField(env, classes, allow, fd), fds)
  }

  /** No later part has the same name as part `i`. */
  predicate LastNamed(parts: seq<FieldPart>, i: int)
    requires 0 <= i < |parts|
  {
    forall j :: i < j < |parts| ==> parts[j].name != parts[i].name
  }

  /** No later part with a hook has the same name as part `i`. */
  predicate LastHooked(parts: seq<FieldPart>, i: int)
    requires 0 <= i < |parts|
  {
    forall j :: i < j < |parts| && parts[j].hook.Some? ==> parts[j].name != parts[i].name
  }

  /** The class attributes the fields of one serializer contribute: each
      field under its own name, and each field hook under `validate_<field>`. */
  datatype Built = Built(fields: map<string, Attr>, hooks: map<string, Attr>)

  const HookPrefix := "validate_"

  /** The attribute a field hook is installed under. */
  function HookKey(fieldName: string): string {
    HookPrefix + fieldName
  }

  /** Different fields have their hooks under different attributes, none of
      them the serializer hook's `validate`. */
  lemma HookKeyInjective(a: string, b: string)
    ensures HookKey(a) == HookKey(b) ==> a == b
    ensures HookKey(a) != "validate"
  {
    assert HookKey(a)[|HookPrefix|..] == a;
    assert HookKey(b)[|HookPrefix|..] == b;
    assert |HookKey(a)| > |"validate"|;
  }

  /** Gathering the built fields into the two mappings `_build_fields`
      returns. A later field of the same name replaces an earlier one; a later
      field without a hook leaves an earlier field's hook in place. */
  function Collect(parts: seq<FieldPart>): (b: Built)
    ensures b.fields.Keys == set p | p in parts :: p.name
    ensures b.hooks.Keys == set p | p in parts && p.hook.Some? :: HookKey(p.name)
    ensures forall n :: n in b.fields ==> b.fields[n].FieldAttr?
    ensures forall n :: n in b.hooks ==> b.hooks[n].HookAttr?
  {
    if |parts| == 0 then Built(map[], map[])
    else
      var p := parts[0];
      var rest := Collect(parts[1..]);
      KeySetsStep(parts);
      // a later part of the same name has already claimed the key
      var fields := if p.name in rest.fields then rest.fields
                    else rest.fields[p.name := FieldAttr(p.field)];
      var hooks := if p.hook.None? || HookKey(p.name) in rest.hooks then rest.hooks
                   else rest.hooks[HookKey(p.name) := HookAttr(p.hook.value)];
      Built(fields, hooks)
  }

  /** The name sets of a non-empty list split at its head. */
  lemma KeySetsStep(parts: seq<FieldPart>)
    requires |parts| > 0
    ensures (set p | p in parts :: p.name) == {parts[0].name} + (set p | p in parts[1..] :: p.name)
    ensures (set p | p in parts && p.hook.Some? :: HookKey(p.name))
            == (if parts[0].hook.Some? then {HookKey(parts[0].name)} else {})
               + (set p | p in parts[1..] && p.hook.Some? :: HookKey(p.name))
  {
    assert forall q :: q in parts <==> q == parts[0] || q in parts[1..];
  }

  /** The field kept under a name is the one built from the last definition
      with that name. */
  lemma {:induction false} CollectKeepsLastField(parts: seq<FieldPart>, i: int)
    requires 0 <= i < |parts| && LastNamed(parts, i)
    ensures Collect(parts).fields[parts[i].name] == FieldAttr(parts[i].field)
    decreases |parts|
  {
    var rest := Collect(parts[1..]);
    if i > 0 {
      assert LastNamed(parts[1..], i - 1) by {
        forall j | i - 1 < j < |parts| - 1
          ensures parts[1..][j].name != parts[1..][i - 1].name
        {
          assert parts[1..][j] == parts[j + 1];
        }
      }
      CollectKeepsLastField(parts[1..], i - 1);
      assert parts[1..][i - 1] in parts[1..];
    }
  }

  /** The hook kept under a field name is the one from the last definition
      with that name that has a hook. */
  lemma {:induction false} CollectKeepsLastHook(parts: seq<FieldPart>, i: int)
    requires 0 <= i < |parts| && parts[i].hook.Some? && LastHooked(parts, i)
    ensures Collect(parts).hooks[HookKey(parts[i].name)] == HookAttr(parts[i].hook.value)
    decreases |parts|
  {
    var rest := Collect(parts[1..]);
    if i == 0 {
      assert HookKey(parts[0].name) !in rest.hooks by {
        forall q | q in parts[1..] && q.hook.Some?
          ensures HookKey(q.name) != HookKey(parts[0].name)
        {
          var j :| 0 <= j < |parts| - 1 && parts[1..][j] == q;
          assert parts[j + 1] == q;
          HookKeyInjective(q.name, parts[0].name);
        }
      }
    } else {
      assert LastHooked(parts[1..], i - 1) by {
        forall j | i - 1 < j < |parts| - 1 && parts[1..][j].hook.Some?
          ensures parts[1..][j].name != parts[1..][i - 1].name
        {
          assert parts[1..][j] == parts[j + 1];
        }
      }
      CollectKeepsLastHook(parts[1..], i - 1);
      assert parts[1..][i - 1] in parts[1..];
      assert HookKey(parts[i].name) in rest.hooks;
    }
  }

  /** The class namespace: the fields first, then each field hook under
      `validate_<field>`, then the serializer hook under `validate`; a later
      entry replaces an earlier one of the same name. */
  function Assemble(name: string, b: Built, validate: Option<Hook>): (c: SerializerClass)
    ensures c.name == name
    ensures c.namespace.Keys == b.fields.Keys + b.hooks.Keys + (if validate.Some? then {"validate"} else {})
    ensures validate.Some? ==> c.namespace["validate"] == HookAttr(validate.value)
    ensures forall n :: n in b.hooks && !(validate.Some? && n == "validate") ==> c.namespace[n] == b.hooks[n]
    ensures forall n :: n in b.fields && n !in b.hooks && !(validate.Some? && n == "validate") ==>
              c.namespace[n] == b.fields[n]
  {
    var own := if validate.Some? then map["validate" := HookAttr(validate.value)] else map[];
    SerializerClass(name, b.fields + b.hooks + own)
  }

  /** Some hook source, at field or serializer level, is present in `s`. */
  predicate HasHookSource(s: SerDefn)
    requires SerializerWellFormed(s)
  {
    SerializerHookSource(s) != VNone
    || exists i :: 0 <= i < |s.fields.value| && FieldHookSource(s.fields.value[i]) != VNone
  }

  /** `s` declares a field called `n`. */
  predicate DeclaresField(s: SerDefn, n: string)
    requires SerializerWellFormed(s)
  {
    exists i :: 0 <= i < |s.fields.value| && s.fields.value[i].name == Some(n)
  }

  /** Building one serializer class (the metaclass's `__new__`). */
  function BuildSerializer(env: Env, classes: map<string, SerializerClass>, allow: Value, s: SerDefn)
    : (r: Result<SerializerClass, CompileError>)
    requires SerializerWellFormed(s)
    ensures r.Success? ==> r.value.name == s.name.value
  {
    var parts :- BuildParts(env, classes, allow, s.fields.value);
    var b := Collect(parts);
    match HookStepFor(env, allow, SerializerHookSource(s))
    case NotAllowed => Failure(CompileError(None, ValidateMethodNotAllowed))
    case Unparsable(cause) => Failure(CompileError(None, SerializerValidateMethodUnparsable(cause)))
    case NoHook => Success(Assemble(s.name.value, b, None))
    case Installed(h) => Success(Assemble(s.name.value, b, Some(h)))
  }

  /** A serializer class is built exactly when every field builds and the
      serializer hook is absent or installed; the first field failure is the
      serializer's; and the namespace gathers the built fields, their hooks and
      the serializer hook. */
  lemma BuildSerializerOutcome(env: Env, classes: map<string, SerializerClass>, allow: Value, s: SerDefn)
    requires SerializerWellFormed(s)
    ensures var parts := BuildParts(env, classes, allow, s.fields.value);
            var step := HookStepFor(env, allow, SerializerHookSource(s));
            var r := BuildSerializer(env, classes, allow, s);
            && (r.Success? <==> parts.Success? && (step.NoHook? || step.Installed?))
            && (parts.Failure? ==> r == Failure(parts.error))
            && (r.Success? ==>
                  r.value == Assemble(s.name.value, Collect(parts.value), if step.Installed? then Some(step.hook) else None))
  {
  }

  /** Every declared field ends up in the class namespace, and a field with a
      hook source has a hook installed as `validate_<field>`. */
  lemma BuiltSerializerHasFields(env: Env, classes: map<string, SerializerClass>, allow: Value, s: SerDefn, i: int)
    requires SerializerWellFormed(s) && 0 <= i < |s.fields.value|
    requires BuildSerializer(env, classes, allow, s).Success?
    ensures s.fields.value[i].name.value in BuildSerializer(env, classes, allow, s).value.namespace
    ensures Truthy(FieldHookSource(s.fields.value[i])) ==>
              var ns := BuildSerializer(env, classes, allow, s).value.namespace;
              HookKey(s.fields.value[i].name.value) in ns && ns[HookKey(s.fields.value[i].name.value)].HookAttr?
  {
    var fds := s.fields.value;
    var parts := BuildParts(env, classes, allow, fds).value;
    var p := parts[i];
    assert p in parts && p.name == fds[i].name.value;
    var b := Collect(parts);
    assert p.name in b.fields;
    if Truthy(FieldHookSource(fds[i])) {
      assert p.hook.Some?;
      assert HookKey(p.name) in b.hooks;
      HookKeyInjective(p.name, p.name);
    }
  }

  /** The serializer hook is installed as `validate`, and it is the function
      that executing the winning source bound to `validate_method`. */
  lemma BuiltSerializerHook(env: Env, classes: map<string, SerializerClass>, allow: Value, s: SerDefn)
    requires SerializerWellFormed(s)
    requires BuildSerializer(env, classes, allow, s).Success?
    requires Truthy(SerializerHookSource(s))
    ensures var ns := BuildSerializer(env, classes, allow, s).value.namespace;
            && "validate" in ns && ns["validate"].HookAttr?
            && env.exec(SerializerHookSource(s)) == Ran(Some(FunctionObject(ns["validate"].hook)))
  {
  }

  /** With hooks disallowed, a serializer builds only if neither it nor any of
      its fields carries a hook source, whatever that source would do. */
  lemma DisallowedSerializerHasNoHooks(env: Env, classes: map<string, SerializerClass>, allow: Value, s: SerDefn)
    requires SerializerWellFormed(s) && Disallows(allow)
    requires BuildSerializer(env, classes, allow, s).Success?
    ensures !HasHookSource(s)
  {
    var fds := s.fields.value;
    forall i | 0 <= i < |fds|
      ensures FieldHookSource(fds[i]) == VNone
    {
      assert BuildField(env, classes, allow, fds[i]).Success?;
    }
  }

  /** A failure reported under a field name names a field of this serializer
      whose own build failed; serializer-level failures carry no key. */
  lemma SerializerErrorAttribution(env: Env, classes: map<string, SerializerClass>, allow: Value, s: SerDefn)
    requires SerializerWellFormed(s)
    requires BuildSerializer(env, classes, allow, s).Failure?
    requires BuildSerializer(env, classes, allow, s).error.key.Some?
    ensures exists i :: 0 <= i < |s.fields.value|
              && s.fields.value[i].name == BuildSerializer(env, classes, allow, s).error.key
              && BuildField(env, classes, allow, s.fields.value[i]).Failure?
  {
    var fds := s.fields.value;
    var e := BuildSerializer(env, classes, allow, s).error;
    var r := BuildParts(env, classes, allow, fds);
    SerializerLevelFailureUnkeyed(env, classes, allow, s);
    assert r.Failure? && r.error == e;
    var i :| 0 <= i < |fds| && BuildField(env, classes, allow, fds[i]) == Failure(e);
    assert e != CompileError(None, NoValidatorKey);
  }

  /** Once every field has built, a failure comes from the serializer hook
      and carries no field key. */
  lemma SerializerLevelFailureUnkeyed(env: Env, classes: map<string, SerializerClass>, allow: Value, s: SerDefn)
    requires SerializerWellFormed(s)
    ensures BuildParts(env, classes, allow, s.fields.value).Success?
            && BuildSerializer(env, classes, allow, s).Failure? ==>
              BuildSerializer(env, classes, allow, s).error.key.None?
  {
  }

  /** The names of the given serializer definitions. */
  function NamesOf(ss: seq<SerDefn>): (r: set<string>)
    requires AllSerializersWellFormed(ss)
    ensures forall i :: 0 <= i < |ss| ==> ss[i].name.value in r
    ensures forall n :: n in r ==> exists i :: 0 <= i < |ss| && ss[i].name.value == n
  {
    if |ss| == 0 then {}
    else
      assert forall i :: 1 <= i < |ss| ==> ss[i] == ss[1..][i - 1];
      {ss[0].name.value} + NamesOf(ss[1..])
  }

  /** Building the depending serializers in declared order; each is
      registered under its name once built, so it is visible to the ones after
      it and to `main`, but not to itself or to those before it. */
  function BuildDepending(env: Env, allow: Value, deps: seq<SerDefn>, classes: map<string, SerializerClass>)
    : (r: Result<map<string, SerializerClass>, CompileError>)
    requires AllSerializersWellFormed(deps)
    ensures r.Success? ==> r.value.Keys == classes.Keys + NamesOf(deps)
    ensures r.Success? ==> forall n :: n in r.value && n !in NamesOf(deps) ==> r.value[n] == classes[n]
    ensures r.Success? ==> forall n :: n in NamesOf(deps) ==> r.value[n].name == n
    decreases |deps|
  {
    if |deps| == 0 then Success(classes)
    else
      match BuildSerializer(env, classes, allow, deps[0])
      case Failure(e) => Failure(e)
      case Success(c) =>
        BuildDepending(env, allow, deps[1..], classes[deps[0].name.value := c])
  }

  /** One step of `BuildDepending`: once the first serializer is built, the
      rest are built against the classes extended with it. */
  lemma DependingStep(env: Env, allow: Value, deps: seq<SerDefn>, classes: map<string, SerializerClass>)
    requires AllSerializersWellFormed(deps) && |deps| > 0
    ensures BuildSerializer(env, classes, allow, deps[0]).Failure? ==>
              BuildDepending(env, allow, deps, classes) == Failure(BuildSerializer(env, classes, allow, deps[0]).error)
    ensures BuildSerializer(env, classes, allow, deps[0]).Success? ==>
              BuildDepending(env, allow, deps, classes)
              == BuildDepending(env, allow, deps[1..], classes[deps[0].name.value := BuildSerializer(env, classes, allow, deps[0]).value])
  {
  }

  /** When the depending serializers all build, so does the first, and the
      rest build against the classes extended with it. */
  lemma DependingSuccessStep(env: Env, allow: Value, deps: seq<SerDefn>, classes: map<string, SerializerClass>)
    requires AllSerializersWellFormed(deps) && |deps| > 0
    requires BuildDepending(env, allow, deps, classes).Success?
    ensures BuildSerializer(env, classes, allow, deps[0]).Success?
    ensures BuildDepending(env, allow, deps[1..],
                           classes[deps[0].name.value := BuildSerializer(env, classes, allow, deps[0]).value]).Success?
  {
    DependingStep(env, allow, deps, classes);
  }

  /** One more serializer registered after `reg`: `reg`'s failure stands;
      otherwise `s` is built against the registry and added under its name. */
  function Register(env: Env, allow: Value, reg: Result<map<string, SerializerClass>, CompileError>, s: SerDefn)
    : (r: Result<map<string, SerializerClass>, CompileError>)
    requires SerializerWellFormed(s)
    ensures r.Success? <==> reg.Success? && BuildSerializer(env, reg.value, allow, s).Success?
    ensures r.Success? ==> r.value == reg.value[s.name.value := BuildSerializer(env, reg.value, allow, s).value]
  {
    var classes :- reg;
    var c :- BuildSerializer(env, classes, allow, s);
    Success(classes[s.name.value := c])
  }

  /** Building the depending serializers one at a time from the front is
      registering them one after another: appending a serializer to the list
      registers it after all the others. */
  lemma {:induction false} DependingSnoc(env: Env, allow: Value, deps: seq<SerDefn>, s: SerDefn,
                                         classes: map<string, SerializerClass>)
    requires AllSerializersWellFormed(deps) && SerializerWellFormed(s)
    ensures AllSerializersWellFormed(deps + [s])
    ensures BuildDepending(env, allow, deps + [s], classes) == Register(env, allow, BuildDepending(env, allow, deps, classes), s)
    decreases |deps|
  {
    var all := deps + [s];
    SnocWellFormed(deps, s);
    if |deps| == 0 {
      assert all[1..] == [];
    } else {
      assert all[0] == deps[0];
      assert all[1..] == deps[1..] + [s];
      DependingStep(env, allow, all, classes);
      DependingStep(env, allow, deps, classes);
      var first := BuildSerializer(env, classes, allow, deps[0]);
      if first.Success? {
        DependingSnoc(env, allow, deps[1..], s, classes[deps[0].name.value := first.value]);
      }
    }
  }

  lemma SnocWellFormed(deps: seq<SerDefn>, s: SerDefn)
    requires AllSerializersWellFormed(deps) && SerializerWellFormed(s)
    ensures AllSerializersWellFormed(deps + [s])
    ensures |deps| > 0 ==> AllSerializersWellFormed(deps[1..])
  {
    var all := deps + [s];
    assert forall i :: 0 <= i < |deps| ==> all[i] == deps[i];
    assert all[|deps|] == s;
    assert forall i :: 0 <= i < |deps| - 1 ==> deps[1..][i] == deps[i + 1];
  }

  /** The registry once the first `i` depending serializers are registered. */
  function RegistryBefore(env: Env, allow: Value, deps: seq<SerDefn>, classes: map<string, SerializerClass>, i: int)
    : Result<map<string, SerializerClass>, CompileError>
    requires AllSerializersWellFormed(deps) && 0 <= i <= |deps|
  {
    assert forall j :: 0 <= j < i ==> deps[..i][j] == deps[j];
    BuildDepending(env, allow, deps[..i], classes)
  }

  /** Depending serializer `i` builds against the registry that holds
      exactly the ones declared before it. */
  predicate BuildsAt(env: Env, allow: Value, deps: seq<SerDefn>, classes: map<string, SerializerClass>, i: int)
    requires AllSerializersWellFormed(deps) && 0 <= i < |deps|
  {
    var reg := RegistryBefore(env, allow, deps, classes, i);
    reg.Success? && BuildSerializer(env, reg.value, allow, deps[i]).Success?
  }

  /** The last depending serializer is registered after all the others. */
  lemma DependingLast(env: Env, allow: Value, deps: seq<SerDefn>, classes: map<string, SerializerClass>)
    requires AllSerializersWellFormed(deps) && |deps| > 0
    ensures BuildDepending(env, allow, deps, classes)
            == Register(env, allow, RegistryBefore(env, allow, deps, classes, |deps| - 1), deps[|deps| - 1])
  {
    var k := |deps| - 1;
    assert deps == deps[..k] + [deps[k]];
    DependingSnoc(env, allow, deps[..k], deps[k], classes);
  }

  /** The depending serializers all build exactly when each one builds
      against the registry of those declared before it. */
  lemma DependingBuildsEach(env: Env, allow: Value, deps: seq<SerDefn>, classes: map<string, SerializerClass>)
    requires AllSerializersWellFormed(deps)
    ensures BuildDepending(env, allow, deps, classes).Success? <==>
              forall i :: 0 <= i < |deps| ==> BuildsAt(env, allow, deps, classes, i)
  {
    if BuildDepending(env, allow, deps, classes).Success? {
      forall i | 0 <= i < |deps|
        ensures BuildsAt(env, allow, deps, classes, i)
      {
        DependingBuildsAt(env, allow, deps, classes, i);
      }
    } else if forall i :: 0 <= i < |deps| ==> BuildsAt(env, allow, deps, classes, i) {
      DependingFromEach(env, allow, deps, classes);
    }
  }

  /** In a successful build, each depending serializer built against the
      registry of those declared before it. */
  lemma {:induction false} DependingBuildsAt(env: Env, allow: Value, deps: seq<SerDefn>,
                                             classes: map<string, SerializerClass>, i: int)
    requires AllSerializersWellFormed(deps) && 0 <= i < |deps|
    requires BuildDepending(env, allow, deps, classes).Success?
    ensures BuildsAt(env, allow, deps, classes, i)
    decreases |deps|
  {
    var k := |deps| - 1;
    DependingLastBuilds(env, allow, deps, classes);
    if i < k {
      PrefixWellFormed(deps, k);
      DependingBuildsAt(env, allow, deps[..k], classes, i);
      BuildsAtPrefix(env, allow, deps, classes, k, i);
    } else {
      assert i == k;
    }
  }

  /** In a successful build, the last depending serializer built against the
      registry of all the others, which therefore built too. */
  lemma DependingLastBuilds(env: Env, allow: Value, deps: seq<SerDefn>, classes: map<string, SerializerClass>)
    requires AllSerializersWellFormed(deps) && |deps| > 0
    requires BuildDepending(env, allow, deps, classes).Success?
    ensures AllSerializersWellFormed(deps[..|deps| - 1])
    ensures BuildDepending(env, allow, deps[..|deps| - 1], classes).Success?
    ensures BuildsAt(env, allow, deps, classes, |deps| - 1)
  {
    PrefixWellFormed(deps, |deps| - 1);
    DependingLast(env, allow, deps, classes);
  }

  /** When each depending serializer builds against the registry of those
      declared before it, they all build. */
  lemma {:induction false} DependingFromEach(env: Env, allow: Value, deps: seq<SerDefn>, classes: map<string, SerializerClass>)
    requires AllSerializersWellFormed(deps)
    requires forall i :: 0 <= i < |deps| ==> BuildsAt(env, allow, deps, classes, i)
    ensures BuildDepending(env, allow, deps, classes).Success?
    decreases |deps|
  {
    if |deps| == 0 {
      assert BuildDepending(env, allow, deps, classes) == Success(classes);
    } else {
      var k := |deps| - 1;
      DependingLast(env, allow, deps, classes);
      PrefixWellFormed(deps, k);
      forall i | 0 <= i < k
        ensures BuildsAt(env, allow, deps[..k], classes, i)
      {
        BuildsAtPrefix(env, allow, deps, classes, k, i);
      }
      DependingFromEach(env, allow, deps[..k], classes);
      assert BuildsAt(env, allow, deps, classes, k);
    }
  }

  lemma PrefixWellFormed(deps: seq<SerDefn>, k: int)
    requires AllSerializersWellFormed(deps) && 0 <= k <= |deps|
    ensures AllSerializersWellFormed(deps[..k])
  {
    assert forall j :: 0 <= j < k ==> deps[..k][j] == deps[j];
  }

  /** Whether serializer `i` builds depends only on the definitions up to it. */
  lemma BuildsAtPrefix(env: Env, allow: Value, deps: seq<SerDefn>, classes: map<string, SerializerClass>, k: int, i: int)
    requires AllSerializersWellFormed(deps) && 0 <= i < k <= |deps|
    ensures AllSerializersWellFormed(deps[..k])
    ensures RegistryBefore(env, allow, deps, classes, i) == RegistryBefore(env, allow, deps[..k], classes, i)
    ensures BuildsAt(env, allow, deps, classes, i) == BuildsAt(env, allow, deps[..k], classes, i)
  {
    PrefixWellFormed(deps, k);
    assert deps[..k][..i] == deps[..i];
    assert deps[..k][i] == deps[i];
  }

  /** The class registered under a depending serializer's name is the one
      built from the last definition of that name, against the registry of
      the definitions before it. */
  lemma {:induction false} DependingRegistersLast(env: Env, allow: Value, deps: seq<SerDefn>,
                                                  classes: map<string, SerializerClass>, i: int)
    requires AllSerializersWellFormed(deps) && 0 <= i < |deps|
    requires forall j :: i < j < |deps| ==> deps[j].name != deps[i].name
    requires BuildDepending(env, allow, deps, classes).Success?
    ensures BuildsAt(env, allow, deps, classes, i)
    ensures BuildDepending(env, allow, deps, classes).value[deps[i].name.value]
            == BuildSerializer(env, RegistryBefore(env, allow, deps, classes, i).value, allow, deps[i]).value
    decreases |deps|
  {
    var k := |deps| - 1;
    DependingLast(env, allow, deps, classes);
    if i < k {
      PrefixWellFormed(deps, k);
      DependingRegistersLast(env, allow, deps[..k], classes, i);
      BuildsAtPrefix(env, allow, deps, classes, k, i);
    }
  }

  /** With hooks disallowed, no depending serializer that was built carries a
      hook source. */
  lemma {:induction false} DisallowedDependingHaveNoHooks(env: Env, allow: Value, deps: seq<SerDefn>, classes: map<string, SerializerClass>)
    requires AllSerializersWellFormed(deps) && Disallows(allow)
    requires BuildDepending(env, allow, deps, classes).Success?
    ensures forall i :: 0 <= i < |deps| ==> !HasHookSource(deps[i])
    decreases |deps|
  {
    if |deps| > 0 {
      DependingSuccessStep(env, allow, deps, classes);
      DisallowedSerializerHasNoHooks(env, classes, allow, deps[0]);
      var c := BuildSerializer(env, classes, allow, deps[0]).value;
      DisallowedDependingHaveNoHooks(env, allow, deps[1..], classes[deps[0].name.value := c]);
      forall i | 1 <= i < |deps|
        ensures !HasHookSource(deps[i])
      {
        assert deps[i] == deps[1..][i - 1];
      }
    }
  }

  predicate DocHasHookSource(d: Doc)
    requires WellFormed(d)
  {
    HasHookSource(d.main.value) || exists i :: 0 <= i < |d.depending| && HasHookSource(d.depending[i])
  }

  /** `build_serializer`: the pre-check, then the depending serializers, then
      `main`, whose class is returned. */
  function Compile(env: Env, d: Doc, allow: Value): (r: Result<SerializerClass, CompileError>)
    ensures CheckDoc(d).Fail? ==> r == Failure(CheckDoc(d).error)
    ensures r.Success? ==> WellFormed(d) && r.value.name == d.main.value.name.value
    // `main` is built against the registry of all depending serializers, and
    // its class is the one returned
    ensures CheckDoc(d).Pass? ==>
              var reg := BuildDepending(env, allow, d.depending, map[]);
              && (reg.Failure? ==> r == Failure(reg.error))
              && (r.Success? <==> reg.Success? && BuildSerializer(env, reg.value, allow, d.main.value).Success?)
              && (r.Success? ==> r.value == BuildSerializer(env, reg.value, allow, d.main.value).value)
  {
    if CheckDoc(d).Fail? then Failure(CheckDoc(d).error)
    else
      match BuildDepending(env, allow, d.depending, map[])
      case Failure(e) => Failure(e)
      case Success(classes) => BuildSerializer(env, classes, allow, d.main.value)
  }

  /** A document compiles exactly when it is well formed, each depending
      serializer builds against those declared before it, and `main` builds
      against all of them. */
  lemma CompileSucceedsExactly(env: Env, d: Doc, allow: Value)
    ensures Compile(env, d, allow).Success? <==>
              && WellFormed(d)
              && (forall i :: 0 <= i < |d.depending| ==> BuildsAt(env, allow, d.depending, map[], i))
              && BuildDepending(env, allow, d.depending, map[]).Success?
              && BuildSerializer(env, BuildDepending(env, allow, d.depending, map[]).value, allow, d.main.value).Success?
  {
    if WellFormed(d) {
      DependingBuildsEach(env, allow, d.depending, map[]);
    }
  }

  /** In a compiled document, the registry `main` was built against holds,
      under each depending serializer's name, the class built from the last
      definition of that name. */
  lemma CompiledMainSeesDepending(env: Env, d: Doc, allow: Value, i: int)
    requires Compile(env, d, allow).Success?
    requires 0 <= i < |d.depending|
    requires forall j :: i < j < |d.depending| ==> d.depending[j].name != d.depending[i].name
    ensures WellFormed(d)
    ensures var reg := BuildDepending(env, allow, d.depending, map[]);
            && reg.Success?
            && Compile(env, d, allow).value == BuildSerializer(env, reg.value, allow, d.main.value).value
            && BuildsAt(env, allow, d.depending, map[], i)
            && reg.value[d.depending[i].name.value]
               == BuildSerializer(env, RegistryBefore(env, allow, d.depending, map[], i).value, allow, d.depending[i]).value
  {
    assert WellFormed(d);
    DependingRegistersLast(env, allow, d.depending, map[], i);
  }

  /** With hooks disallowed, a document compiles only if none of its
      serializers or fields carries a hook source. */
  lemma DisallowedDocHasNoHooks(env: Env, d: Doc, allow: Value)
    requires Disallows(allow) && Compile(env, d, allow).Success?
    ensures WellFormed(d) && !DocHasHookSource(d)
  {
    var classes := BuildDepending(env, allow, d.depending, map[]).value;
    DisallowedDependingHaveNoHooks(env, allow, d.depending, map[]);
    DisallowedSerializerHasNoHooks(env, classes, allow, d.main.value);
  }
}

=== FILE: document.dfy ===
/** The parsed definition document that the serializer compiler consumes.

    The document arrives already parsed from JSON or YAML, so it is a tree of
    mappings, lists and scalars. Keys that the compiler indexes directly
    (`main`, `name`, `fields`, `field`, `validator`) are `Option`s, because a
    missing key is an error the compiler reports. Keys read with a default
    (`field_args`, `field_kwargs`, `validators`, `args`, `kwargs`,
    `depending_serializers`) hold the default when absent. Hook sources are read
    with `.get(key, None)`, so an absent key and an explicit null are the same
    `VNone`. */
module Document {
  import opened Wrappers

  /** A scalar or container value of the parsed document. A float is held as
      an exact real; infinities and NaN are not represented. */
  datatype Value =
    | VNone
    | VBool(b: bool)
    | VInt(i: int)
    | VFloat(x: real)
    | VStr(s: string)
    | VList(items: seq<Value>)
    | VDict(entries: map<string, Value>)

  /** Python truthiness: `None`, `False`, `0`, `0.0` and empty strings, lists
      and mappings are false, everything else is true. */
  predicate Truthy(v: Value) {
    match v
    case VNone => false
    case VBool(b) => b
    case VInt(i) => i != 0
    case VFloat(x) => x != 0.0
    case VStr(s) => s != ""
    case VList(items) => items != []
    case VDict(entries) => entries != map[]
  }

  /** Python's `or` on two operands: the first if it is truthy, else the second. */
  function Or(a: Value, b: Value): Value
  {
    if Truthy(a) then a else b
  }

  /** Python's `v == False` on document values: only `False`, `0` and `0.0`
      compare equal. */
  predicate EqualsFalse(v: Value) {
    v == VBool(false) || v == VInt(0) || v == VFloat(0.0)
  }

  /** One entry of a field's `validators` list. */
  datatype ValidatorDefn = ValidatorDefn(
    validator: Option<string>,
    args: seq<Value>,
    kwargs: map<string, Value>)

  /** One entry of a serializer's `fields` list. `validateMethod` is the
      deprecated alias of `fieldValidateMethod`. */
  datatype FieldDefn = FieldDefn(
    name: Option<string>,
    field: Option<string>,
    fieldArgs: seq<Value>,
    fieldKwargs: map<string, Value>,
    validators: seq<ValidatorDefn>,
    validateMethod: Value,
    fieldValidateMethod: Value)

  /** The `main` serializer or one entry of `depending_serializers`.
      `validateMethod` is the deprecated alias of `serializerValidateMethod`. */
  datatype SerDefn = SerDefn(
    name: Option<string>,
    fields: Option<seq<FieldDefn>>,
    serializerValidateMethod: Value,
    validateMethod: Value)

  /** The whole definition document. */
  datatype Doc = Doc(main: Option<SerDefn>, depending: seq<SerDefn>)
}

=== FILE: errors.dfy ===
/** Compile errors. Every failure the compiler reports is a validation error;
    most carry the name of the field they concern as their key, the rest
    (document-structure errors and serializer-level errors) have no key. */
module Errors {
  import opened Wrappers

  datatype Reason =
    | NoMain
    | NoSerializerKey(key: string)
    | NoFieldKey(key: string)
    | FieldNotAvailable(fieldClass: string)
    | FieldClassNotFound(fieldClass: string)
    | NoValidatorKey
    | CannotImportValidator(path: string)
    | ConstructorRaised(message: string)
    | ValidateMethodNotAllowed
    | FieldValidateMethodUnparsable(field: string, cause: string)
    | SerializerValidateMethodUnparsable(cause: string)
    | FieldNameUnbound

  /** `key` is the field name the error is reported under, if any. */
  datatype CompileError = CompileError(key: Option<string>, reason: Reason)

  /** The human-readable text of each reason. The document excerpt that the
      structural messages append is not modelled. */
  function Message(r: Reason): string {
    match r
    case NoMain => "Please define a 'main' serializer data"
    case NoSerializerKey(k) => "No " + k + " in serializer definition"
    case NoFieldKey(k) => "No " + k + " in field"
    case FieldNotAvailable(c) => "'" + c + "' field not avalable."
    case FieldClassNotFound(c) => "Can't find '" + c + "' field class"
    case NoValidatorKey => "'validator'"
    case CannotImportValidator(p) => "cannot import name '" + p + "'"
    case ConstructorRaised(m) => m
    case ValidateMethodNotAllowed => "serializer validate_method not allowed."
    case FieldValidateMethodUnparsable(f, c) => "Can't parse " + f + " field_validate_method: " + c
    case SerializerValidateMethodUnparsable(c) => "Can't parse serializer_validate_method: " + c
    case FieldNameUnbound => "local variable 'field_name' referenced before assignment"
  }
}

=== FILE: extra_fields.dfy ===
/** The additional form-oriented field types
    (definable_serializer/extra_fields/__init__.py).

    Each one adjusts the options handed to a REST framework base field (most
    often its `style`, which picks the HTML template) and adds a rejection
    rule after the base field's own conversion. The base field's conversion
    is an input here: its outcome, a converted value or an error text. */
module ExtraFields {
  import opened Wrappers
  import opened Document

  /** Options handed to a field constructor. */
  type Options = map<string, Value>

  /** Why a conversion was rejected: the base field's error, or one of the
      codes these fields add. */
  datatype Rejection =
    | BaseRejected(message: string)
    | Code(code: string)

  const TurnItOn := "please_be_sure_to_turn_it_on"
  const FieldRequired := "this_field_is_required"
  const SelectValidChoice := "select_a_valid_choice"

  /** The texts of the added codes. */
  function CodeText(code: string): string {
    if code == TurnItOn then "Please be sure to turn it on."
    else if code == FieldRequired then "This field is required."
    else if code == SelectValidChoice then "Select a valid choice."
    else ""
  }

  /** The base field's error texts with one added code. */
  function WithCode(base: map<string, string>, code: string): (m: map<string, string>)
    ensures m.Keys == base.Keys + {code}
    ensures m[code] == CodeText(code)
    ensures forall k :: k in base && k != code ==> m[k] == base[k]
  {
    base[code := CodeText(code)]
  }

  /** Options with `key` taken out. */
  function Without(opts: Options, key: string): (r: Options)
    ensures r.Keys == opts.Keys - {key}
    ensures forall k :: k in r ==> r[k] == opts[k]
  {
    opts - {key}
  }

  /** `opts.get(key, default)`. */
  function Get(opts: Options, key: string, default: Value): Value {
    if key in opts then opts[key] else default
  }

  /** The `style` of a widget-like field: a template and whether its choices
      are laid out inline. */
  function ChoiceStyle(template: string, inline: Value): Value {
    VDict(map["base_template" := VStr(template), "inline" := inline])
  }

  /** Python's `data == "" or data is None or data is False`. */
  predicate EmptyOrOff(d: Value) {
    d == VStr("") || d == VNone || d == VBool(false)
  }

  /** Python's `data == "" or data is None`. */
  predicate EmptyOrNone(d: Value) {
    d == VStr("") || d == VNone
  }

  /** A base conversion followed by a rejection rule: the converted value is
      kept unless the rule rejects it. */
  function RejectIf(converted: Result<Value, string>, rejected: bool, code: string): (r: Result<Value, Rejection>)
    ensures converted.Failure? ==> r == Failure(BaseRejected(converted.error))
    ensures converted.Success? ==> (r.Success? <==> !rejected)
    ensures r.Success? ==> r.value == converted.value
    ensures converted.Success? && rejected ==> r == Failure(Code(code))
  {
    match converted
    case Failure(m) => Failure(BaseRejected(m))
    case Success(d) => if rejected then Failure(Code(code)) else Success(d)
  }

  // ---------------------------------------------------------------- CheckRequiredField

  /** The options a check-required field passes on: its `style` is always the
      single checkbox template, whatever the caller asked for. */
  function CheckRequiredOptions(opts: Options): (r: Options)
    ensures r.Keys == opts.Keys + {"style"}
    ensures r["style"] == VDict(map["base_template" := VStr("checkbox.html")])
    ensures forall k :: k in opts && k != "style" ==> r[k] == opts[k]
  {
    opts["style" := VDict(map["base_template" := VStr("checkbox.html")])]
  }

  /** A check-required field accepts only a converted value that is not
      empty, not null and not off. */
  function CheckRequiredConvert(converted: Result<Value, string>): (r: Result<Value, Rejection>)
    ensures r.Success? <==> converted.Success? && !EmptyOrOff(converted.value)
    ensures r.Success? ==> r.value == converted.value
    ensures converted.Success? && EmptyOrOff(converted.value) ==> r == Failure(Code(TurnItOn))
  {
    RejectIf(converted, converted.Success? && EmptyOrOff(converted.value), TurnItOn)
  }

  /** On the values a boolean field converts to, the check must be on. */
  lemma CheckRequiredMeansOn(converted: Result<Value, string>)
    requires converted.Success? && (converted.value.VBool? || converted.value.VNone?)
    ensures CheckRequiredConvert(converted).Success? <==> converted.value == VBool(true)
  {
  }

  // ---------------------------------------------------------------- MultipleCheckboxField

  /** A configured multiple-checkbox field: whether a selection is required,
      and the options passed on to the base field. */
  datatype MultipleCheckbox = MultipleCheckbox(required: Value, baseOptions: Options)

  /** `required` and `inline` are the field's own options (both default to
      false); the base field receives neither, and a checkbox-list style
      carrying `inline` instead of any style of the caller's. */
  function NewMultipleCheckbox(opts: Options): (f: MultipleCheckbox)
    ensures f.required == Get(opts, "required", VBool(false))
    ensures f.baseOptions.Keys == opts.Keys - {"required", "inline"} + {"style"}
    ensures f.baseOptions["style"] == ChoiceStyle("checkbox_multiple.html", Get(opts, "inline", VBool(false)))
    ensures forall k :: k in opts && k !in {"required", "inline", "style"} ==> f.baseOptions[k] == opts[k]
  {
    var rest := Without(Without(opts, "required"), "inline");
    MultipleCheckbox(Get(opts, "required", VBool(false)),
                     rest["style" := ChoiceStyle("checkbox_multiple.html", Get(opts, "inline", VBool(false)))])
  }

  /** An empty selection is rejected only when a selection is required. */
  function MultipleCheckboxConvert(f: MultipleCheckbox, converted: Result<set<Value>, string>)
    : (r: Result<set<Value>, Rejection>)
    ensures r.Success? <==> converted.Success? && (Truthy(f.required) ==> |converted.value| > 0)
    ensures r.Success? ==> r.value == converted.value
    ensures converted.Success? && Truthy(f.required) && converted.value == {} ==> r == Failure(Code(FieldRequired))
  {
    match converted
    case Failure(m) => Failure(BaseRejected(m))
    case Success(d) => if Truthy(f.required) && |d| == 0 then Failure(Code(FieldRequired)) else Success(d)
  }

  // ---------------------------------------------------------------- ChoiceWithBlankField

  /** A choice: its value and its label. */
  datatype Choice = Choice(value: Value, display: Value)

  const BlankDash: Value := VStr("---------")

  /** The label of the blank choice: the caller's if truthy, else the dashes. */
  function BlankLabel(blankLabel: Value): Value {
    Or(blankLabel, BlankDash)
  }

  /** The blank label is always truthy, so the source's `if blank_label:`
      branch is always taken. */
  lemma BlankLabelTruthy(blankLabel: Value)
    ensures Truthy(BlankLabel(blankLabel))
  {
  }

  /** The choices of a choice-with-blank field: one blank choice in front of
      the caller's. */
  function ChoicesWithBlank(choices: seq<Choice>, blankLabel: Value): (r: seq<Choice>)
    ensures |r| == |choices| + 1
    ensures r[0].value == VStr("") && Truthy(r[0].display)
    ensures Truthy(blankLabel) ==> r[0].display == blankLabel
    ensures !Truthy(blankLabel) ==> r[0].display == BlankDash
    ensures r[1..] == choices
  {
    [Choice(VStr(""), BlankLabel(blankLabel))] + choices
  }

  /** Picking the blank choice, or nothing, is rejected as a missing value. */
  function ChoiceWithBlankConvert(converted: Result<Value, string>): (r: Result<Value, Rejection>)
    ensures r.Success? <==> converted.Success? && !EmptyOrNone(converted.value)
    ensures r.Success? ==> r.value == converted.value
    ensures converted.Success? && EmptyOrNone(converted.value) ==> r == Failure(Code(FieldRequired))
  {
    RejectIf(converted, converted.Success? && EmptyOrNone(converted.value), FieldRequired)
  }

  /** The blank choice the field adds is never an acceptable answer. */
  lemma BlankChoiceRejected(choices: seq<Choice>, blankLabel: Value)
    ensures ChoiceWithBlankConvert(Success(ChoicesWithBlank(choices, blankLabel)[0].value)).Failure?
  {
  }

  // ---------------------------------------------------------------- ChoiceRequiredField

  /** Why a choice-required field could not be created. */
  datatype ChoiceSetupError =
    | NoChoices
    | FirstChoiceNotNull(first: Choice)

  /** The first choice is the placeholder and its value must be null; an
      empty choice list fails on reading the first choice. */
  function ChoiceRequiredSetup(choices: seq<Choice>): (r: Result<seq<Choice>, ChoiceSetupError>)
    ensures r.Success? <==> |choices| > 0 && choices[0].value == VNone
    ensures r.Success? ==> r.value == choices
    ensures |choices| == 0 ==> r == Failure(NoChoices)
    ensures |choices| > 0 && choices[0].value != VNone ==> r == Failure(FirstChoiceNotNull(choices[0]))
  {
    if |choices| == 0 then Failure(NoChoices)
    else if choices[0].value != VNone then Failure(FirstChoiceNotNull(choices[0]))
    else Success(choices)
  }

  /** Text of the placeholder error. It says a blank first value is allowed
      too; the check above accepts only null. */
  const FirstChoiceMessage := "first choice value must be blank or None. "

  /** Empty, null and off are all rejected as not a valid choice. */
  function ChoiceRequiredConvert(converted: Result<Value, string>): (r: Result<Value, Rejection>)
    ensures r.Success? <==> converted.Success? && !EmptyOrOff(converted.value)
    ensures r.Success? ==> r.value == converted.value
    ensures converted.Success? && EmptyOrOff(converted.value) ==> r == Failure(Code(SelectValidChoice))
  {
    RejectIf(converted, converted.Success? && EmptyOrOff(converted.value), SelectValidChoice)
  }

  /** The placeholder choice of a field that could be created is never an
      acceptable answer. */
  lemma PlaceholderRejected(choices: seq<Choice>)
    requires ChoiceRequiredSetup(choices).Success?
    ensures ChoiceRequiredConvert(Success(choices[0].value)) == Failure(Code(SelectValidChoice))
  {
  }

  // ---------------------------------------------------------------- RadioField

  /** `inline` is the field's own option (default false); the base field
      receives the radio template style carrying it. */
  function RadioOptions(opts: Options): (r: Options)
    ensures r.Keys == opts.Keys - {"inline"} + {"style"}
    ensures r["style"] == ChoiceStyle("radio.html", Get(opts, "inline", VBool(false)))
    ensures forall k :: k in opts && k !in {"inline", "style"} ==> r[k] == opts[k]
  {
    Without(opts, "inline")["style" := ChoiceStyle("radio.html", Get(opts, "inline", VBool(false)))]
  }

  // ---------------------------------------------------------------- TextField

  /** The text area style: the caller's style, if any, with the template,
      row count and placeholder set. A placeholder in the caller's style wins
      over the `placeholder` option. A `style` that is not a mapping fails. */
  function TextOptions(opts: Options): (r: Result<Options, string>)
    ensures r.Success? <==> ("style" in opts ==> opts["style"].VDict?)
    ensures r.Success? ==> r.value.Keys == opts.Keys - {"rows", "placeholder"} + {"style"}
    ensures r.Success? ==> forall k :: k in opts && k !in {"rows", "placeholder", "style"} ==> r.value[k] == opts[k]
    ensures r.Success? ==> r.value["style"].VDict?
    ensures r.Success? ==>
              var caller := if "style" in opts then opts["style"].entries else map[];
              var style := r.value["style"].entries;
              && style.Keys == caller.Keys + {"base_template", "rows", "placeholder"}
              && style["base_template"] == VStr("textarea.html")
              && style["rows"] == Get(opts, "rows", VInt(5))
              && style["placeholder"] == (if "placeholder" in caller then caller["placeholder"]
                                          else Get(opts, "placeholder", VStr("")))
              && forall k :: k in caller && k !in {"base_template", "rows", "placeholder"} ==> style[k] == caller[k]
  {
    var given := Get(opts, "style", VDict(map[]));
    if !given.VDict? then Failure("'style' has no attribute 'update'")
    else
      var caller := given.entries;
      var placeholder := if "placeholder" in caller then caller["placeholder"] else Get(opts, "placeholder", VStr(""));
      var style := caller + map["base_template" := VStr("textarea.html"),
                                "rows" := Get(opts, "rows", VInt(5)),
                                "placeholder" := placeholder];
      Success(Without(Without(opts, "rows"), "placeholder")["style" := VDict(style)])
  }
}

=== FILE: extra_fields_core.dfy ===
/** The earlier copies of the additional field types
    (definable_serializer/extra_fields/core.py). Check-required is the same as
    in the newer module; the others read their own options by taking them out
    of the option mapping rather than as keyword parameters, one field differs
    in name and rule, and the text area ignores the caller's style. */
module ExtraFieldsCore {
  import opened Wrappers
  import opened Document
  import opened ExtraFields

  /** Taking `required` and `inline` out of the options one after the other
      configures the field exactly as the keyword parameters of the newer
      copy do. */
  function CoreMultipleCheckbox(opts: Options): (f: MultipleCheckbox)
    ensures f == NewMultipleCheckbox(opts)
  {
    var required := Get(opts, "required", VBool(false));
    var afterRequired := Without(opts, "required");
    var inline := Get(afterRequired, "inline", VBool(false));
    var rest := Without(afterRequired, "inline");
    MultipleCheckbox(required, rest["style" := ChoiceStyle("checkbox_multiple.html", inline)])
  }

  /** The same agreement for the radio field. */
  function CoreRadioOptions(opts: Options): (r: Options)
    ensures r == RadioOptions(opts)
  {
    var inline := Get(opts, "inline", VBool(false));
    Without(opts, "inline")["style" := ChoiceStyle("radio.html", inline)]
  }

  /** A non-nullable choice rejects an empty or null answer as missing: the
      rule the newer choice-with-blank field keeps. */
  function NonNullableConvert(converted: Result<Value, string>): (r: Result<Value, Rejection>)
    ensures r.Success? <==> converted.Success? && !EmptyOrNone(converted.value)
    ensures r.Success? ==> r.value == converted.value
    ensures converted.Success? && EmptyOrNone(converted.value) ==> r == Failure(Code(FieldRequired))
  {
    ChoiceWithBlankConvert(converted)
  }

  /** The non-nullable choice and the newer choice-required field disagree
      exactly on the answer false, which only the latter rejects. */
  lemma NonNullableVersusChoiceRequired(converted: Result<Value, string>)
    ensures NonNullableConvert(converted).Success? && ChoiceRequiredConvert(converted).Failure?
            <==> converted == Success(VBool(false))
    ensures ChoiceRequiredConvert(converted).Success? ==> NonNullableConvert(converted).Success?
  {
  }

  /** The text area style here is built from the `rows` and `placeholder`
      options alone; a style given by the caller is dropped. */
  function CoreTextOptions(opts: Options): (r: Options)
    ensures r.Keys == opts.Keys - {"rows", "placeholder"} + {"style"}
    ensures r["style"] == VDict(map["base_template" := VStr("textarea.html"),
                                    "rows" := Get(opts, "rows", VInt(5)),
                                    "placeholder" := Get(opts, "placeholder", VStr(""))])
    ensures forall k :: k in opts && k !in {"rows", "placeholder", "style"} ==> r[k] == opts[k]
  {
    var style := map["base_template" := VStr("textarea.html"),
                     "rows" := Get(opts, "rows", VInt(5)),
                     "placeholder" := Get(opts, "placeholder", VStr(""))];
    Without(Without(opts, "rows"), "placeholder")["style" := VDict(style)]
  }

  /** Without a caller's style the two text areas are configured identically;
      with one that sets a placeholder, they disagree on the placeholder
      whenever the `placeholder` option says otherwise. */
  lemma TextAreasAgreeWithoutStyle(opts: Options)
    ensures "style" !in opts ==> TextOptions(opts) == Success(CoreTextOptions(opts))
    ensures "style" in opts && opts["style"].VDict? && "placeholder" in opts["style"].entries
            && opts["style"].entries["placeholder"] != Get(opts, "placeholder", VStr(""))
            ==> TextOptions(opts).value["style"] != CoreTextOptions(opts)["style"]
  {
    if "style" !in opts {
      var r := TextOptions(opts).value;
      assert r["style"] == CoreTextOptions(opts)["style"];
      assert r == CoreTextOptions(opts);
    }
  }
}

=== FILE: hook_attribution.dfy ===
/** How the class builder reports a serializer hook that cannot be parsed,
    as written (definable_serializer/serializers.py, lines 188-190 and 216-219).

    The report is keyed by `field_name`, which at that point is only the loop
    variable left over from installing the field hooks: the last key of the
    field-hook mapping, in its insertion order. If no field has a hook the
    variable was never bound and the report is an unbound-variable error
    instead. The corrected builder, `Compiler.BuildSerializer`, reports the
    failure without a field key. */
module HookAttribution {
  import opened Wrappers
  import opened Document
  import opened Runtime
  import opened Errors
  import opened PreCheck
  import opened Resolve
  import opened Compiler

  /** The index of the first part named `n` that has a hook, or `|parts|`
      when there is none. */
  function FirstHook(parts: seq<FieldPart>, n: string): (k: nat)
    ensures k <= |parts|
    ensures k < |parts| ==> parts[k].hook.Some? && parts[k].name == n
    ensures forall j :: 0 <= j < k ==> !(parts[j].hook.Some? && parts[j].name == n)
    decreases |parts|
  {
    if |parts| == 0 then 0
    else if parts[0].hook.Some? && parts[0].name == n then 0
    else 1 + FirstHook(parts[1..], n)
  }

  /** Any index meeting `FirstHook`'s description is `FirstHook`. */
  lemma FirstHookUnique(parts: seq<FieldPart>, n: string, k: nat)
    requires k <= |parts|
    requires k < |parts| ==> parts[k].hook.Some? && parts[k].name == n
    requires forall j :: 0 <= j < k ==> !(parts[j].hook.Some? && parts[j].name == n)
    ensures FirstHook(parts, n) == k
  {
  }

  /** The keys of the field-hook mapping in insertion order: each name with a
      hook appears once, and the names are ordered by the first field of that
      name that has a hook; later ones only replace the value. */
  function HookOrder(parts: seq<FieldPart>): (r: seq<string>)
    ensures forall k :: 0 <= k < |r| ==> FirstHook(parts, r[k]) < |parts|
    ensures forall p :: p in parts && p.hook.Some? ==> p.name in r
    ensures forall a, b :: 0 <= a < b < |r| ==> FirstHook(parts, r[a]) < FirstHook(parts, r[b])
    decreases |parts|
  {
    if |parts| == 0 then []
    else
      var init := parts[..|parts| - 1];
      var last := parts[|parts| - 1];
      assert forall p :: p in parts <==> p in init || p == last;
      var prev := HookOrder(init);
      HookOrderStep(parts, prev);
      if last.hook.Some? && last.name !in prev then prev + [last.name] else prev
  }

  /** Extending the parts by one keeps the first hooked index of every name
      already ordered, and places a new hooked name last. */
  lemma HookOrderStep(parts: seq<FieldPart>, prev: seq<string>)
    requires |parts| > 0
    requires forall k :: 0 <= k < |prev| ==> FirstHook(parts[..|parts| - 1], prev[k]) < |parts| - 1
    requires forall p :: p in parts[..|parts| - 1] && p.hook.Some? ==> p.name in prev
    ensures forall k :: 0 <= k < |prev| ==> FirstHook(parts, prev[k]) == FirstHook(parts[..|parts| - 1], prev[k])
    ensures var last := parts[|parts| - 1];
            last.hook.Some? && last.name !in prev ==> FirstHook(parts, last.name) == |parts| - 1
  {
    forall k | 0 <= k < |prev|
      ensures FirstHook(parts, prev[k]) == FirstHook(parts[..|parts| - 1], prev[k])
    {
      FirstHookKept(parts, prev[k]);
    }
    var last := parts[|parts| - 1];
    if last.hook.Some? && last.name !in prev {
      FirstHookNew(parts, last.name);
    }
  }

  /** A name with a hook before the last part keeps its first hooked index. */
  lemma FirstHookKept(parts: seq<FieldPart>, n: string)
    requires |parts| > 0 && FirstHook(parts[..|parts| - 1], n) < |parts| - 1
    ensures FirstHook(parts, n) == FirstHook(parts[..|parts| - 1], n)
  {
    var init := parts[..|parts| - 1];
    var f := FirstHook(init, n);
    assert parts[f] == init[f];
    assert forall j :: 0 <= j < f ==> parts[j] == init[j];
    FirstHookUnique(parts, n, f);
  }

  /** A hooked last part whose name had no hook before is that name's first. */
  lemma FirstHookNew(parts: seq<FieldPart>, n: string)
    requires |parts| > 0 && parts[|parts| - 1].hook.Some? && parts[|parts| - 1].name == n
    requires forall p :: p in parts[..|parts| - 1] && p.hook.Some? ==> p.name != n
    ensures FirstHook(parts, n) == |parts| - 1
  {
    var init := parts[..|parts| - 1];
    forall j | 0 <= j < |parts| - 1
      ensures !(parts[j].hook.Some? && parts[j].name == n)
    {
      assert parts[j] == init[j] && init[j] in init;
    }
    FirstHookUnique(parts, n, |parts| - 1);
  }

  /** The value the loop variable `field_name` holds after the field-hook
      loop, if it ran at all. */
  function LeftoverFieldName(parts: seq<FieldPart>): (r: Option<string>)
    ensures r.None? <==> forall p :: p in parts ==> p.hook.None?
    ensures r.Some? ==> exists j :: 0 <= j < |parts| && parts[j].hook.Some? && parts[j].name == r.value
    // the last key in insertion order: no hooked name was first inserted later
    ensures r.Some? ==> forall p :: p in parts && p.hook.Some? ==> FirstHook(parts, p.name) <= FirstHook(parts, r.value)
  {
    var order := HookOrder(parts);
    if |order| == 0 then None else Some(order[|order| - 1])
  }

  /** The error raised for an unparsable serializer hook, as written. */
  function SerializerHookErrorAsWritten(parts: seq<FieldPart>, cause: string): CompileError
  {
    match LeftoverFieldName(parts)
    case None => CompileError(None, FieldNameUnbound)
    case Some(n) => CompileError(Some(n), SerializerValidateMethodUnparsable(cause))
  }

  /** The class builder as written: identical to `Compiler.BuildSerializer`
      except for the report of an unparsable serializer hook. */
  function BuildSerializerAsWritten(env: Env, classes: map<string, SerializerClass>, allow: Value, s: SerDefn)
    : (r: Result<SerializerClass, CompileError>)
    requires SerializerWellFormed(s)
    ensures !HookStepFor(env, allow, SerializerHookSource(s)).Unparsable? ==>
              r == BuildSerializer(env, classes, allow, s)
    ensures r.Success? <==> BuildSerializer(env, classes, allow, s).Success?
  {
    var parts :- BuildParts(env, classes, allow, s.fields.value);
    var b := Collect(parts);
    match HookStepFor(env, allow, SerializerHookSource(s))
    case NotAllowed => Failure(CompileError(None, ValidateMethodNotAllowed))
    case Unparsable(cause) => Failure(SerializerHookErrorAsWritten(parts, cause))
    case NoHook => Success(Assemble(s.name.value, b, None))
    case Installed(h) => Success(Assemble(s.name.value, b, Some(h)))
  }

  /** Once every field has built, an unparsable serializer hook is what both
      builders report, each in its own way. */
  lemma UnparsableReports(env: Env, classes: map<string, SerializerClass>, allow: Value, s: SerDefn)
    requires SerializerWellFormed(s)
    requires BuildParts(env, classes, allow, s.fields.value).Success?
    requires HookStepFor(env, allow, SerializerHookSource(s)).Unparsable?
    ensures var cause := HookStepFor(env, allow, SerializerHookSource(s)).cause;
            var parts := BuildParts(env, classes, allow, s.fields.value).value;
            && BuildSerializerAsWritten(env, classes, allow, s) == Failure(SerializerHookErrorAsWritten(parts, cause))
            && BuildSerializer(env, classes, allow, s) == Failure(CompileError(None, SerializerValidateMethodUnparsable(cause)))
  {
  }

  /** As written, when every field builds and some field has a hook, an
      unparsable serializer hook is reported under the name of a field whose
      own build succeeded, so the report points at the wrong place; the
      corrected builder keys it to no field. */
  lemma AsWrittenBlamesAHealthyField(env: Env, classes: map<string, SerializerClass>, allow: Value, s: SerDefn)
    requires SerializerWellFormed(s)
    requires BuildParts(env, classes, allow, s.fields.value).Success?
    requires HookStepFor(env, allow, SerializerHookSource(s)).Unparsable?
    requires exists i :: 0 <= i < |s.fields.value| && Truthy(FieldHookSource(s.fields.value[i]))
    ensures var e := BuildSerializerAsWritten(env, classes, allow, s);
            && e.Failure? && e.error.key.Some?
            && exists i :: 0 <= i < |s.fields.value| && s.fields.value[i].name == e.error.key
                           && BuildField(env, classes, allow, s.fields.value[i]).Success?
    ensures BuildSerializer(env, classes, allow, s).Failure?
            && BuildSerializer(env, classes, allow, s).error.key.None?
  {
    var fds := s.fields.value;
    var parts := BuildParts(env, classes, allow, fds).value;
    UnparsableReports(env, classes, allow, s);
    var i :| 0 <= i < |fds| && Truthy(FieldHookSource(fds[i]));
    assert parts[i] in parts && parts[i].hook.Some?;
    var n := LeftoverFieldName(parts).value;
    var k :| 0 <= k < |parts| && parts[k].hook.Some? && parts[k].name == n;
    var built := BuildField(env, classes, allow, fds[k]);
    assert built.Success? && parts[k] == built.value;
    assert built.value.name == fds[k].name.value;
  }

  /** As written, when no field has a hook, an unparsable serializer hook
      surfaces as an unbound-variable error and the parse failure is lost. */
  lemma AsWrittenLosesTheCause(env: Env, classes: map<string, SerializerClass>, allow: Value, s: SerDefn)
    requires SerializerWellFormed(s)
    requires BuildParts(env, classes, allow, s.fields.value).Success?
    requires HookStepFor(env, allow, SerializerHookSource(s)).Unparsable?
    requires forall i :: 0 <= i < |s.fields.value| ==> !Truthy(FieldHookSource(s.fields.value[i]))
    ensures BuildSerializerAsWritten(env, classes, allow, s) == Failure(CompileError(None, FieldNameUnbound))
    ensures BuildSerializer(env, classes, allow, s)
            == Failure(CompileError(None, SerializerValidateMethodUnparsable(
                                              HookStepFor(env, allow, SerializerHookSource(s)).cause)))
  {
    var fds := s.fields.value;
    var parts := BuildParts(env, classes, allow, fds).value;
    UnparsableReports(env, classes, allow, s);
    forall p | p in parts
      ensures p.hook.None?
    {
      var k :| 0 <= k < |parts| && parts[k] == p;
      assert !Truthy(FieldHookSource(fds[k]));
    }
  }

  const BrokenHookSource: Value := VStr("validate_method = 1")
  const FieldHookText: Value := VStr("def validate_method(self, value):\n    return value")

  /** A serializer with one field `a` that has a working hook, and a
      serializer hook whose source binds `validate_method` to something that is
      not a function. */
  const Witness: SerDefn :=
    SerDefn(Some("S"),
            Some([FieldDefn(Some("a"), Some("CharField"), [], map[], [], VNone, FieldHookText)]),
            BrokenHookSource, VNone)

  /** In the witness, field `a` and its hook build without error. */
  lemma WitnessFieldBuilds(env: Env, allow: Value, s: SerDefn)
    requires env.registry("CharField") == Some(External("rest_framework.fields.CharField"))
    requires env.construct(External("rest_framework.fields.CharField"), [], map[], []) == None
    requires env.exec(FieldHookText) == Ran(Some(FunctionObject(Hook(0))))
    requires allow == DefaultPolicy && s == Witness
    ensures BuildField(env, map[], allow, s.fields.value[0])
            == Success(FieldPart("a", Instance(External("rest_framework.fields.CharField"), [], map[], []), Some(Hook(0))))
  {
    var fd := s.fields.value[0];
    assert BuildValidators(env, "a", []) == Success([]);
    assert FieldKwargs(fd, []) == map[];
    assert HookStepFor(env, allow, FieldHookSource(fd)) == Installed(Hook(0));
  }

  /** In the witness, the fields build to the one part for `a`, and the
      serializer hook is unparsable. */
  lemma WitnessParts(env: Env, allow: Value, s: SerDefn)
    requires env.registry("CharField") == Some(External("rest_framework.fields.CharField"))
    requires env.construct(External("rest_framework.fields.CharField"), [], map[], []) == None
    requires env.exec(FieldHookText) == Ran(Some(FunctionObject(Hook(0))))
    requires env.exec(BrokenHookSource) == Ran(Some(OtherObject))
    requires allow == DefaultPolicy && s == Witness
    ensures BuildParts(env, map[], allow, s.fields.value)
            == Success([FieldPart("a", Instance(External("rest_framework.fields.CharField"), [], map[], []), Some(Hook(0)))])
    ensures HookStepFor(env, allow, SerializerHookSource(s)) == Unparsable("Not a function")
  {
    var part := FieldPart("a", Instance(External("rest_framework.fields.CharField"), [], map[], []), Some(Hook(0)));
    WitnessFieldBuilds(env, allow, s);
    var r := BuildParts(env, map[], allow, s.fields.value);
    assert r.Success? && r.value[0] == part;
    assert r.value == [part];
  }

  /** Concretely: field `a` builds (above), yet the as-written builder reports
      the serializer hook's failure under `a`. */
  lemma AsWrittenWitness(env: Env, allow: Value, s: SerDefn)
    requires env.registry("CharField") == Some(External("rest_framework.fields.CharField"))
    requires env.construct(External("rest_framework.fields.CharField"), [], map[], []) == None
    requires env.exec(FieldHookText) == Ran(Some(FunctionObject(Hook(0))))
    requires env.exec(BrokenHookSource) == Ran(Some(OtherObject))
    requires allow == DefaultPolicy && s == Witness
    ensures BuildSerializerAsWritten(env, map[], allow, s)
            == Failure(CompileError(Some("a"), SerializerValidateMethodUnparsable("Not a function")))
    ensures BuildSerializer(env, map[], allow, s)
            == Failure(CompileError(None, SerializerValidateMethodUnparsable("Not a function")))
  {
    var part := FieldPart("a", Instance(External("rest_framework.fields.CharField"), [], map[], []), Some(Hook(0)));
    WitnessParts(env, allow, s);
    assert HookOrder([part]) == ["a"] by {
      assert [part][..0] == [];
    }
    assert LeftoverFieldName([part]) == Some("a");
  }
}

=== FILE: model_accessors.dfy ===
/** Serializer-class accessors on models that store definition documents
    (definable_serializer/models/__init__.py).

    When a model instance is created, every field that stores a definition
    document gets an instance attribute `get_<field>_serializer_class`. It is
    obtained by looking up the private name `__get_<field>_serializer_class`,
    which ordinary lookup does not find, so the fallback lookup recognises it
    with the pattern `^__get_(.*)_serializer_class$` and hands out an accessor
    for the captured field name. Calling an accessor compiles the field's
    stored document under the field's hook policy (hooks disallowed when the
    field has none). */
module ModelAccessors {
  import opened Wrappers
  import opened Document
  import opened Runtime
  import opened Errors
  import opened PreCheck
  import opened Compiler
  import AccessorName
  import CompileFacts

  const PublicPrefix := "get_"
  const PrivatePrefix := "__get_"
  const AccessorSuffix := "_serializer_class"

  function PublicName(fieldName: string): string {
    AccessorName.Build(PublicPrefix, fieldName, AccessorSuffix)
  }

  function PrivateName(fieldName: string): string {
    AccessorName.Build(PrivatePrefix, fieldName, AccessorSuffix)
  }

  /** One model field: its name, the document stored in it, and, for a field
      that stores definition documents, its hook policy. */
  datatype StoredField = StoredField(name: string, value: Doc, policy: Option<Value>)

  /** A model instance: its fields, and the names ordinary attribute lookup
      finds (methods, class attributes, field values). */
  datatype ModelInstance = ModelInstance(fields: seq<StoredField>, ordinary: set<string>)

  /** What looking up an attribute name yields. */
  datatype Resolved =
    | Ordinary
    | Accessor(fieldName: string)
    | NoAttribute

  /** Why calling an accessor failed. */
  datatype AccessError =
    | AttributeMissing(name: string)
    | FieldDoesNotExist(name: string)
    | UnexpectedKeyword(keyword: string)
    | Invalid(error: CompileError)
    // the attribute exists but holds no definition document, so the compiler
    // raises on it
    | NotADocument(name: string)

  /** `__getattr__`, consulted only after ordinary lookup fails. */
  function Fallback(name: string): Resolved {
    match AccessorName.Match(PrivatePrefix, AccessorSuffix, name)
    case Some(g) => Accessor(g)
    case None => NoAttribute
  }

  /** Lookup before any accessor is installed. */
  function BaseLookup(m: ModelInstance, name: string): Resolved {
    if name in m.ordinary then Ordinary else Fallback(name)
  }

  /** The names of the fields that store definition documents. */
  function DefinableNames(m: ModelInstance): set<string> {
    set i | 0 <= i < |m.fields| && m.fields[i].policy.Some? :: m.fields[i].name
  }

  function PublicNames(names: set<string>): set<string> {
    set n | n in names :: PublicName(n)
  }

  /** The attributes installed when the instance is created
      (`__get_class_serialier_methods`): for each such field, whatever the
      private name looks up to, under the public name. */
  function Installed(m: ModelInstance): (r: map<string, Resolved>)
    ensures r.Keys == PublicNames(DefinableNames(m))
    ensures forall n :: n in DefinableNames(m) ==> r[PublicName(n)] == BaseLookup(m, PrivateName(n))
  {
    var cut := |PublicPrefix|;
    assert forall n :: PublicName(n)[cut..|PublicName(n)| - |AccessorSuffix|] == n;
    map k | k in PublicNames(DefinableNames(m)) ::
      BaseLookup(m, PrivateName(k[cut..|k| - |AccessorSuffix|]))
  }

  /** Attribute lookup on a created instance: installed attributes first, then
      ordinary lookup, then the fallback. */
  function GetAttr(m: ModelInstance, name: string): Resolved {
    var installed := Installed(m);
    if name in installed then installed[name] else BaseLookup(m, name)
  }

  /** Every field that stores definition documents has its public accessor,
      and the accessor is for that very field. */
  lemma DefinableFieldHasAccessor(m: ModelInstance, i: int)
    requires 0 <= i < |m.fields| && m.fields[i].policy.Some?
    requires AccessorName.NewlineFree(m.fields[i].name)
    requires PrivateName(m.fields[i].name) !in m.ordinary
    ensures GetAttr(m, PublicName(m.fields[i].name)) == Accessor(m.fields[i].name)
  {
    var n := m.fields[i].name;
    assert n in DefinableNames(m);
    AccessorName.RoundTrip(PrivatePrefix, AccessorSuffix, n);
  }

  /** Any other `get_<name>_serializer_class` that ordinary lookup does not
      find is missing: the fallback pattern only recognises private names. */
  lemma OtherNamesHaveNoAccessor(m: ModelInstance, n: string)
    requires n !in DefinableNames(m)
    requires PublicName(n) !in m.ordinary
    ensures GetAttr(m, PublicName(n)) == NoAttribute
  {
    if PublicName(n) in PublicNames(DefinableNames(m)) {
      var k :| k in DefinableNames(m) && PublicName(k) == PublicName(n);
      AccessorName.BuildInjective(PublicPrefix, AccessorSuffix, k, n);
    }
    var name := PublicName(n);
    assert name[..|PrivatePrefix|][0] != PrivatePrefix[0];
    AccessorName.WrongPrefix(PrivatePrefix, AccessorSuffix, name);
  }

  /** The first field with a given name (`_meta.get_field`). */
  function FieldNamed(fields: seq<StoredField>, n: string): (r: Option<StoredField>)
    ensures r.None? <==> forall i :: 0 <= i < |fields| ==> fields[i].name != n
    ensures r.Some? ==> exists i :: 0 <= i < |fields| && fields[i] == r.value
                                    && forall j :: 0 <= j < i ==> fields[j].name != n
    ensures r.Some? ==> r.value.name == n
  {
    if |fields| == 0 then None
    else if fields[0].name == n then Some(fields[0])
    else
      assert forall i :: 1 <= i < |fields| ==> fields[i] == fields[1..][i - 1];
      var r := FieldNamed(fields[1..], n);
      if r.Some? then
        assert forall j :: 0 <= j < |fields| - 1 ==> fields[1..][j] == fields[j + 1];
        r
      else r
  }

  /** The hook policy an accessor compiles with: the field's own, or hooks
      disallowed for a field without one. */
  function PolicyOf(f: StoredField): (allow: Value)
    ensures f.policy.None? ==> Disallows(allow)
    ensures f.policy.Some? ==> allow == f.policy.value
  {
    f.policy.GetOr(VBool(false))
  }

  /** Calling an accessor, as written: the compiler is handed a
      `base_classes` keyword it does not accept, so every call on an existing
      field fails. */
  function CallAsWritten(env: Env, m: ModelInstance, n: string): (r: Result<SerializerClass, AccessError>)
    ensures r.Failure?
    ensures FieldNamed(m.fields, n).Some? ==> r.error == UnexpectedKeyword("base_classes")
    ensures FieldNamed(m.fields, n).None? ==> r.error == FieldDoesNotExist(n)
  {
    match FieldNamed(m.fields, n)
    case None => Failure(FieldDoesNotExist(n))
    case Some(_) => Failure(UnexpectedKeyword("base_classes"))
  }

  /** Calling an accessor as intended: the stored document compiled under the
      field's policy. Base classes for the built serializer are not part of
      this model. */
  function Call(env: Env, m: ModelInstance, n: string): (r: Result<SerializerClass, AccessError>)
    ensures FieldNamed(m.fields, n).None? ==> r == Failure(FieldDoesNotExist(n))
    ensures FieldNamed(m.fields, n).Some? ==>
              var f := FieldNamed(m.fields, n).value;
              && (r.Success? <==> Compile(env, f.value, PolicyOf(f)).Success?)
              && (r.Success? ==> r.value == Compile(env, f.value, PolicyOf(f)).value)
              && (r.Failure? ==> r.error == Invalid(Compile(env, f.value, PolicyOf(f)).error))
  {
    match FieldNamed(m.fields, n)
    case None => Failure(FieldDoesNotExist(n))
    case Some(f) =>
      match Compile(env, f.value, PolicyOf(f))
      case Failure(e) => Failure(Invalid(e))
      case Success(c) => Success(c)
  }

  /** A field without a hook policy of its own never yields a serializer
      whose document carries hook source. */
  lemma PlainFieldRefusesHooks(env: Env, m: ModelInstance, n: string)
    requires FieldNamed(m.fields, n).Some? && FieldNamed(m.fields, n).value.policy.None?
    requires Call(env, m, n).Success?
    ensures WellFormed(FieldNamed(m.fields, n).value.value)
            && !DocHasHookSource(FieldNamed(m.fields, n).value.value)
  {
    var f := FieldNamed(m.fields, n).value;
    DisallowedDocHasNoHooks(env, f.value, PolicyOf(f));
  }

  /** Concretely: a model whose one field stores the one-field character
      document. Its accessor is installed, yet calling it as written fails,
      while the intended call returns the compiled class. */
  lemma AccessorWitness(env: Env, m: ModelInstance)
    requires env.registry("CharField") == Some(CompileFacts.CharField)
    requires env.construct(CompileFacts.CharField, [], map[], []) == None
    requires m == ModelInstance([StoredField("foo_bar_baz", CompileFacts.CharFieldDoc, Some(DefaultPolicy))], {})
    ensures GetAttr(m, "get_foo_bar_baz_serializer_class") == Accessor("foo_bar_baz")
    ensures CallAsWritten(env, m, "foo_bar_baz") == Failure(UnexpectedKeyword("base_classes"))
    ensures Call(env, m, "foo_bar_baz").Success?
  {
    WitnessInstalled(m);
    WitnessCompiles(env, m);
  }

  lemma WitnessInstalled(m: ModelInstance)
    requires m == ModelInstance([StoredField("foo_bar_baz", CompileFacts.CharFieldDoc, Some(DefaultPolicy))], {})
    ensures GetAttr(m, "get_foo_bar_baz_serializer_class") == Accessor("foo_bar_baz")
  {
    assert PublicName("foo_bar_baz") == "get_foo_bar_baz_serializer_class";
    DefinableFieldHasAccessor(m, 0);
  }

  lemma WitnessCompiles(env: Env, m: ModelInstance)
    requires env.registry("CharField") == Some(CompileFacts.CharField)
    requires env.construct(CompileFacts.CharField, [], map[], []) == None
    requires m == ModelInstance([StoredField("foo_bar_baz", CompileFacts.CharFieldDoc, Some(DefaultPolicy))], {})
    ensures FieldNamed(m.fields, "foo_bar_baz") == Some(m.fields[0])
    ensures Call(env, m, "foo_bar_baz").Success?
  {
    assert PolicyOf(m.fields[0]) == DefaultPolicy;
    CompileFacts.CharFieldDocCompiles(env, DefaultPolicy, CompileFacts.CharFieldDoc);
  }
}

=== FILE: model_core.dfy ===
/** The earlier accessor scheme (definable_serializer/models/core.py).

    Nothing is installed up front: any name of the shape
    `get_<name>_serializer_class` that ordinary lookup does not find is
    recognised by the pattern `^get_(.*)_serializer_class$` and yields an
    accessor for `<name>`, whether or not such an attribute exists. Calling it
    reads the attribute and compiles it under the compiler's default policy,
    so a missing attribute surfaces only then. */
module ModelCore {
  import opened Wrappers
  import opened Document
  import opened Runtime
  import opened Compiler
  import AccessorName
  import opened ModelAccessors

  /** A model instance: the documents stored under attribute names, and the
      other names ordinary lookup finds. */
  datatype CoreInstance = CoreInstance(values: map<string, Doc>, ordinary: set<string>)

  predicate FoundOrdinarily(m: CoreInstance, name: string) {
    name in m.values || name in m.ordinary
  }

  /** Attribute lookup: ordinary lookup, then `__getattr__`. */
  function CoreGetAttr(m: CoreInstance, name: string): Resolved {
    if FoundOrdinarily(m, name) then Ordinary
    else
      match AccessorName.Match(PublicPrefix, AccessorSuffix, name)
      case Some(g) => Accessor(g)
      case None => NoAttribute
  }

  /** Calling the accessor for `n`: `getattr(self, n)`, then compilation
      under the compiler's default policy. A stored document is compiled and
      its class returned. Any other value `getattr` finds, an ordinary
      attribute or the accessor function `__getattr__` makes for a name of
      the accessor shape, is no definition document and the compiler raises
      on it. Otherwise `getattr` itself raises. */
  function CoreCall(env: Env, m: CoreInstance, n: string): (r: Result<SerializerClass, AccessError>)
    ensures n in m.values ==> (r.Success? <==> Compile(env, m.values[n], DefaultPolicy).Success?)
    ensures n in m.values && r.Success? ==> r.value == Compile(env, m.values[n], DefaultPolicy).value
    ensures n in m.values && r.Failure? ==> r.error == Invalid(Compile(env, m.values[n], DefaultPolicy).error)
    ensures n !in m.values ==> r.Failure?
    ensures n !in m.values ==> (r.error == AttributeMissing(n) <==> CoreGetAttr(m, n) == NoAttribute)
    ensures n !in m.values && CoreGetAttr(m, n) != NoAttribute ==> r.error == NotADocument(n)
  {
    if n in m.values then
      match Compile(env, m.values[n], DefaultPolicy)
      case Failure(e) => Failure(Invalid(e))
      case Success(c) => Success(c)
    else if CoreGetAttr(m, n) == NoAttribute then Failure(AttributeMissing(n))
    else Failure(NotADocument(n))
  }

  /** Every newline-free name has an accessor, even one that names no
      attribute; the missing attribute is reported only by the call. */
  lemma EveryNameHasAccessor(env: Env, m: CoreInstance, n: string)
    requires AccessorName.NewlineFree(n) && !FoundOrdinarily(m, PublicName(n))
    ensures CoreGetAttr(m, PublicName(n)) == Accessor(n)
    ensures n !in m.values && CoreGetAttr(m, n) == NoAttribute ==> CoreCall(env, m, n) == Failure(AttributeMissing(n))
  {
    AccessorName.RoundTrip(PublicPrefix, AccessorSuffix, n);
  }

  /** A name the pattern does not recognise is missing. */
  lemma UnrecognisedNameMissing(m: CoreInstance, name: string)
    requires !FoundOrdinarily(m, name)
    requires forall g :: !(AccessorName.NewlineFree(g)
                           && (name == PublicName(g) || name == PublicName(g) + [AccessorName.Newline]))
    ensures CoreGetAttr(m, name) == NoAttribute
  {
    var r := AccessorName.Match(PublicPrefix, AccessorSuffix, name);
    if r.Some? {
      AccessorName.MatchSound(PublicPrefix, AccessorSuffix, name);
    }
  }
}

=== FILE: model_field.dfy ===
/** The database field that stores a definition document
    (definable_serializer/models/fields.py, `AbstractDefinableSerializerField`).

    The field takes one extra option, the hook policy, and its `clean` step
    accepts a stored document only when the serializer compiler accepts it
    under that policy. The JSON or YAML parsing of the base field is an
    input: `clean` receives its outcome. */
module ModelField {
  import opened Wrappers
  import opened Document
  import opened Runtime
  import opened Errors
  import opened PreCheck
  import opened Compiler

  const PolicyOption := "allow_validate_method"

  /** A configured field: its hook policy and the options passed on to the
      base field. */
  datatype DefinableField = DefinableField(allowValidateMethod: Value, baseOptions: map<string, Value>)

  /** The constructor: the policy option is taken out of the options, with
      hooks allowed when it is absent; everything else goes to the base
      field. */
  function NewField(options: map<string, Value>): (f: DefinableField)
    ensures PolicyOption in options ==> f.allowValidateMethod == options[PolicyOption]
    ensures PolicyOption !in options ==> f.allowValidateMethod == DefaultPolicy
    ensures f.baseOptions.Keys == options.Keys - {PolicyOption}
    ensures forall k :: k in f.baseOptions ==> f.baseOptions[k] == options[k]
  {
    var allow := if PolicyOption in options then options[PolicyOption] else DefaultPolicy;
    DefinableField(allow, options - {PolicyOption})
  }

  const InvalidPrefix := "Invalid define Format!: "

  /** The text of a rejected document: the prefix followed by the cause. */
  function InvalidFormat(cause: string): string {
    InvalidPrefix + cause
  }

  /** `clean`: the base field's cleaning, then a trial compilation under the
      field's policy. Any failure of either becomes one validation error; on
      success the cleaned document itself is returned. */
  function Clean(env: Env, f: DefinableField, cleaned: Result<Doc, string>): (r: Result<Doc, string>)
    ensures r.Success? <==> cleaned.Success? && Compile(env, cleaned.value, f.allowValidateMethod).Success?
    ensures r.Success? ==> r.value == cleaned.value
    ensures cleaned.Failure? ==> r == Failure(InvalidFormat(cleaned.error))
    ensures r.Failure? ==> |r.error| >= |InvalidPrefix| && r.error[..|InvalidPrefix|] == InvalidPrefix
  {
    match cleaned
    case Failure(m) => Failure(InvalidFormat(m))
    case Success(d) =>
      match Compile(env, d, f.allowValidateMethod)
      case Failure(e) => Failure(InvalidFormat(Message(e.reason)))
      case Success(_) => Success(d)
  }

  /** A field declared with the policy option set to false rejects every
      document that carries hook source anywhere, even source that would
      parse. */
  lemma DisallowingFieldRejectsHooks(env: Env, options: map<string, Value>, d: Doc)
    requires PolicyOption in options && options[PolicyOption] == VBool(false)
    requires WellFormed(d) && DocHasHookSource(d)
    ensures Clean(env, NewField(options), Success(d)).Failure?
  {
    var f := NewField(options);
    if Compile(env, d, f.allowValidateMethod).Success? {
      DisallowedDocHasNoHooks(env, d, f.allowValidateMethod);
    }
  }
}

=== FILE: precheck.dfy ===
/** The structural pre-check that runs before anything is built
    (definable_serializer/serializers.py, `_defn_pre_checker`).

    It looks, in this order, for `main`; then for `name` and `fields` in the
    main serializer and for `name` and `field` in each of its fields; then does
    the same for every depending serializer in declared order. The first
    missing key stops the check. */
module PreCheck {
  import opened Wrappers
  import opened Document
  import opened Errors

  predicate FieldHasKeys(f: FieldDefn) {
    f.name.Some? && f.field.Some?
  }

  predicate AllFieldsHaveKeys(fs: seq<FieldDefn>) {
    forall i :: 0 <= i < |fs| ==> FieldHasKeys(fs[i])
  }

  predicate SerializerWellFormed(s: SerDefn) {
    s.name.Some? && s.fields.Some? && AllFieldsHaveKeys(s.fields.value)
  }

  predicate AllSerializersWellFormed(ss: seq<SerDefn>) {
    forall i :: 0 <= i < |ss| ==> SerializerWellFormed(ss[i])
  }

  /** A document the compiler may start building from. */
  predicate WellFormed(d: Doc) {
    d.main.Some? && SerializerWellFormed(d.main.value) && AllSerializersWellFormed(d.depending)
  }

  /** The key a malformed field is reported for: `name` is looked for first. */
  function MissingFieldKey(f: FieldDefn): string {
    if f.name.None? then "name" else "field"
  }

  function MissingSerializerKey(s: SerDefn): string {
    if s.name.None? then "name" else "fields"
  }

  function CheckFields(fs: seq<FieldDefn>): (r: Outcome<CompileError>)
    ensures r.Pass? <==> AllFieldsHaveKeys(fs)
    ensures r.Fail? ==> (exists i :: 0 <= i < |fs| && !FieldHasKeys(fs[i])
                          && AllFieldsHaveKeys(fs[..i])
                          && r.error == CompileError(None, NoFieldKey(MissingFieldKey(fs[i]))))
  {
    if |fs| == 0 then Pass
    else if !FieldHasKeys(fs[0]) then
      assert AllFieldsHaveKeys(fs[..0]);
      Fail(CompileError(None, NoFieldKey(MissingFieldKey(fs[0]))))
    else
      var rest := CheckFields(fs[1..]);
      if rest.Pass? then
        assert forall i :: 1 <= i < |fs| ==> fs[i] == fs[1..][i - 1];
        Pass
      else
        assert forall i :: 0 <= i < |fs| - 1 ==> fs[1..][..i] == fs[1..i + 1];
        assert forall i :: 0 <= i < |fs| - 1 && AllFieldsHaveKeys(fs[1..][..i]) ==> AllFieldsHaveKeys(fs[..i + 1]);
        rest
  }

  function CheckSerializer(s: SerDefn): (r: Outcome<CompileError>)
    ensures r.Pass? <==> SerializerWellFormed(s)
    ensures r.Fail? && (s.name.None? || s.fields.None?) ==>
      r.error == CompileError(None, NoSerializerKey(MissingSerializerKey(s)))
    ensures r.Fail? && s.name.Some? && s.fields.Some? ==> r == CheckFields(s.fields.value)
  {
    if s.name.None? || s.fields.None? then
      Fail(CompileError(None, NoSerializerKey(MissingSerializerKey(s))))
    else
      CheckFields(s.fields.value)
  }

  function CheckSerializers(ss: seq<SerDefn>): (r: Outcome<CompileError>)
    ensures r.Pass? <==> AllSerializersWellFormed(ss)
    ensures r.Fail? ==> (exists i :: 0 <= i < |ss| && AllSerializersWellFormed(ss[..i])
                          && r == CheckSerializer(ss[i]))
  {
    if |ss| == 0 then Pass
    else
      var first := CheckSerializer(ss[0]);
      if first.Fail? then
        assert AllSerializersWellFormed(ss[..0]);
        first
      else
        var rest := CheckSerializers(ss[1..]);
        if rest.Pass? then
          assert forall i :: 1 <= i < |ss| ==> ss[i] == ss[1..][i - 1];
          Pass
        else
          assert forall i :: 0 <= i < |ss| - 1 ==> ss[1..][..i] == ss[1..i + 1];
          assert forall i :: 0 <= i < |ss| - 1 && AllSerializersWellFormed(ss[1..][..i]) ==> AllSerializersWellFormed(ss[..i + 1]);
          rest
  }

  /** The whole pre-check. It succeeds exactly on well-formed documents; a
      document without `main` fails with the "no main" error whatever else it
      holds, and a malformed main serializer is reported before any depending
      one. */
  function CheckDoc(d: Doc): (r: Outcome<CompileError>)
    ensures r.Pass? <==> WellFormed(d)
    ensures d.main.None? ==> r == Fail(CompileError(None, NoMain))
    ensures d.main.Some? && !SerializerWellFormed(d.main.value) ==> r == CheckSerializer(d.main.value)
    ensures r.Fail? ==> r.error.key.None?
  {
    if d.main.None? then Fail(CompileError(None, NoMain))
    else
      var m := CheckSerializer(d.main.value);
      if m.Fail? then m else CheckSerializers(d.depending)
  }
}

=== FILE: renderers.dfy ===
/** Naming of the generated API document (definable_serializer/renderers.py,
    `OpenAPIDocMixin`): the view's class name in snake case, unless the view
    overrides the name or the version. */
module Renderers {
  import opened Wrappers

  const NoVersion := "no-versioning"

  /** Characters of the pattern's first group `[a-z0-9]`. */
  predicate LowerOrDigit(c: char) {
    ('a' <= c <= 'z') || ('0' <= c <= '9')
  }

  /** Characters of the pattern's second group `[A-Z]`. */
  predicate Upper(c: char) {
    'A' <= c <= 'Z'
  }

  /** A word boundary: a lower-case letter or digit followed by a capital. */
  predicate BoundaryAt(s: string, i: int)
    requires 0 <= i < |s| - 1
  {
    LowerOrDigit(s[i]) && Upper(s[i + 1])
  }

  /** `re.sub('([a-z0-9])([A-Z])', r'\1_\2', s)`: the scan tries each position
      from the left; a match consumes both characters and the scan resumes
      after them. */
  function Underscore(s: string): string
    decreases |s|
  {
    if |s| < 2 then s
    else if BoundaryAt(s, 0) then [s[0], '_', s[1]] + Underscore(s[2..])
    else [s[0]] + Underscore(s[1..])
  }

  /** `str.lower` on ASCII capitals; other characters are kept. */
  function Lower(c: char): (d: char)
    ensures !Upper(d)
    ensures Upper(c) ==> d as int == c as int + 32
    ensures !Upper(c) ==> d == c
  {
    if Upper(c) then (c as int + 32) as char else c
  }

  function LowerAll(s: string): (r: string)
    ensures |r| == |s|
    ensures forall i :: 0 <= i < |s| ==> r[i] == Lower(s[i])
  {
    if |s| == 0 then [] else [Lower(s[0])] + LowerAll(s[1..])
  }

  /** `camel_to_sneak`. */
  function CamelToSnake(s: string): string {
    LowerAll(Underscore(s))
  }

  /** The reference reading: each character, lower-cased, followed by an
      underscore exactly where a boundary starts. Unlike the scan it looks at
      every position, so it says that no boundary is ever skipped. */
  function Reference(s: string): string
    decreases |s|
  {
    if |s| == 0 then []
    else [Lower(s[0])] + (if |s| >= 2 && BoundaryAt(s, 0) then "_" else "") + Reference(s[1..])
  }

  /** The scan inserts an underscore at every boundary: a matched capital can
      never start another match, so skipping it loses nothing. */
  lemma {:induction false} CamelToSnakeIsReference(s: string)
    ensures CamelToSnake(s) == Reference(s)
    decreases |s|
  {
    if |s| < 2 {
      if |s| == 1 {
        assert LowerAll(s) == [Lower(s[0])];
      }
    } else if BoundaryAt(s, 0) {
      CamelToSnakeIsReference(s[2..]);
      ScanAtBoundary(s);
      ReferenceAtBoundary(s);
    } else {
      CamelToSnakeIsReference(s[1..]);
      LowerAllConcat([s[0]], Underscore(s[1..]));
    }
  }

  /** At a boundary the scan emits both characters around an underscore and
      resumes after the capital. */
  lemma ScanAtBoundary(s: string)
    requires |s| >= 2 && BoundaryAt(s, 0)
    ensures CamelToSnake(s) == [Lower(s[0]), '_', Lower(s[1])] + CamelToSnake(s[2..])
  {
    LowerAllConcat([s[0], '_', s[1]], Underscore(s[2..]));
    assert LowerAll([s[0], '_', s[1]]) == [Lower(s[0]), '_', Lower(s[1])];
  }

  /** A capital that ends a boundary does not start one. */
  lemma ReferenceAtBoundary(s: string)
    requires |s| >= 2 && BoundaryAt(s, 0)
    ensures Reference(s) == [Lower(s[0]), '_', Lower(s[1])] + Reference(s[2..])
  {
    assert s[1..][1..] == s[2..];
    assert !(|s[1..]| >= 2 && BoundaryAt(s[1..], 0));
    assert Reference(s[1..]) == [Lower(s[1])] + Reference(s[2..]);
  }

  lemma LowerAllConcat(a: string, b: string)
    ensures LowerAll(a + b) == LowerAll(a) + LowerAll(b)
  {
    var l := LowerAll(a + b);
    var r := LowerAll(a) + LowerAll(b);
    assert forall i :: 0 <= i < |a| + |b| ==> l[i] == r[i];
  }

  /** The number of boundaries in `s`. */
  function Boundaries(s: string): nat
    decreases |s|
  {
    if |s| < 2 then 0 else (if BoundaryAt(s, 0) then 1 else 0) + Boundaries(s[1..])
  }

  /** The result has one extra character per boundary. */
  lemma {:induction false} ReferenceLength(s: string)
    ensures |Reference(s)| == |s| + Boundaries(s)
    decreases |s|
  {
    if |s| > 0 {
      ReferenceLength(s[1..]);
    }
  }

  /** The reference never produces a capital. */
  lemma {:induction false} ReferenceHasNoCapitals(s: string)
    ensures forall i :: 0 <= i < |Reference(s)| ==> !Upper(Reference(s)[i])
    decreases |s|
  {
    if |s| > 0 {
      ReferenceHasNoCapitals(s[1..]);
      var head := [Lower(s[0])] + (if |s| >= 2 && BoundaryAt(s, 0) then "_" else "");
      assert Reference(s) == head + Reference(s[1..]);
    }
  }

  /** Without capitals there is no boundary and nothing to lower: the name is
      kept as it is. */
  lemma {:induction false} ReferenceKeepsLowerCase(s: string)
    requires forall i :: 0 <= i < |s| ==> !Upper(s[i])
    ensures Reference(s) == s
    decreases |s|
  {
    if |s| > 0 {
      ReferenceKeepsLowerCase(s[1..]);
      assert s == [s[0]] + s[1..];
    }
  }

  /** The snake-case name has no capitals, is one character longer per
      boundary, and converting it again changes nothing. */
  lemma CamelToSnakeProperties(s: string)
    ensures forall i :: 0 <= i < |CamelToSnake(s)| ==> !Upper(CamelToSnake(s)[i])
    ensures |CamelToSnake(s)| == |s| + Boundaries(s)
    ensures CamelToSnake(CamelToSnake(s)) == CamelToSnake(s)
  {
    CamelToSnakeIsReference(s);
    ReferenceLength(s);
    ReferenceHasNoCapitals(s);
    CamelToSnakeIsReference(CamelToSnake(s));
    ReferenceKeepsLowerCase(CamelToSnake(s));
  }

  /** An override hook on the view (`get_api_name`, `get_version`): absent, or
      the string it returns, `None` being `Absent`. */
  datatype Override = Absent | Returns(text: string)

  /** `override() or default`: an override replaces the default only when it
      returns a non-empty string. */
  function Choose(o: Override, default: string): (r: string)
    ensures o.Returns? && o.text != "" ==> r == o.text
    ensures o.Absent? || o.text == "" ==> r == default
  {
    match o
    case Returns(t) => if t != "" then t else default
    case Absent => default
  }

  /** The naming of the generated document. */
  datatype DocNaming = DocNaming(title: string, apiName: string, version: string)

  function Naming(viewClassName: string, apiName: Override, version: Override): (n: DocNaming)
    ensures n.title == n.apiName + " API"
    ensures apiName.Absent? || apiName.text == "" ==> n.apiName == CamelToSnake(viewClassName)
    ensures version.Absent? || version.text == "" ==> n.version == NoVersion
    ensures apiName.Returns? && apiName.text != "" ==> n.apiName == apiName.text
    ensures version.Returns? && version.text != "" ==> n.version == version.text
    ensures viewClassName != "" ==> n.apiName != ""
  {
    CamelToSnakeProperties(viewClassName);
    var name := Choose(apiName, CamelToSnake(viewClassName));
    DocNaming(name + " API", name, Choose(version, NoVersion))
  }

  /** The document's name in each of the three cases of an override (none,
      one returning the empty string, one returning a name), against the
      reference reading of `camel_to_sneak`: without a usable override the
      name is the view's class name with an underscore at each boundary and no
      capitals left. */
  lemma NamingCases(viewClassName: string, apiName: Override, version: Override)
    ensures var n := Naming(viewClassName, apiName, version);
            && n.apiName == (if apiName.Returns? && apiName.text != "" then apiName.text else Reference(viewClassName))
            && n.version == (if version.Returns? && version.text != "" then version.text else NoVersion)
            && n.title == n.apiName + " API"
    ensures !(apiName.Returns? && apiName.text != "") ==>
              var name := Naming(viewClassName, apiName, version).apiName;
              && |name| == |viewClassName| + Boundaries(viewClassName)
              && forall i :: 0 <= i < |name| ==> !Upper(name[i])
  {
    CamelToSnakeIsReference(viewClassName);
    CamelToSnakeProperties(viewClassName);
  }
}

=== FILE: resolve.dfy ===
/** The three resolvers the compiler uses for one field
    (definable_serializer/serializers.py): the field-class lookup, the
    validator builder, and the hook-source parser. */
module Resolve {
  import opened Wrappers
  import opened Document
  import opened Runtime
  import opened Errors
  import opened Traverse

  /** The three places a field type name is looked up in, in order:
      0 the framework's field registry, 1 the depending serializers built so
      far, 2 a dotted-path lookup. */
  function Stage(env: Env, classes: map<string, SerializerClass>, t: string, k: nat): Option<Callable>
    requires k < 3
  {
    if k == 0 then env.registry(t)
    else if k == 1 then (if t in classes then Some(Nested(classes[t])) else None)
    else env.locate(t)
  }

  /** `_get_field_class`: the first stage that finds something wins; nothing
      is found only when every stage misses. */
  function ResolveFieldClass(env: Env, classes: map<string, SerializerClass>, t: string): (r: Option<Callable>)
    ensures r.None? <==> forall k :: 0 <= k < 3 ==> Stage(env, classes, t, k).None?
    ensures forall k :: 0 <= k < 3 && Stage(env, classes, t, k).Some?
                        && (forall j :: 0 <= j < k ==> Stage(env, classes, t, j).None?)
                        ==> r == Stage(env, classes, t, k)
  {
    assert Stage(env, classes, t, 0) == env.registry(t);
    assert Stage(env, classes, t, 1) == (if t in classes then Some(Nested(classes[t])) else None);
    assert Stage(env, classes, t, 2) == env.locate(t);
    if env.registry(t).Some? then env.registry(t)
    else if t in classes then Some(Nested(classes[t]))
    else env.locate(t)
  }

  /** Building one validator of field `fieldName`. A definition without a
      `validator` key fails with the lookup error of that key, which is not
      attributed to the field. */
  function BuildValidator(env: Env, fieldName: string, vd: ValidatorDefn): (r: Result<Instance, CompileError>)
    ensures r.Success? <==>
      && vd.validator.Some?
      && env.locate(vd.validator.value).Some?
      && env.construct(env.locate(vd.validator.value).value, vd.args, vd.kwargs, []).None?
    ensures r.Success? ==>
      r.value == Instance(env.locate(vd.validator.value).value, vd.args, vd.kwargs, [])
    ensures vd.validator.Some? && env.locate(vd.validator.value).None? ==>
      r == Failure(CompileError(Some(fieldName), CannotImportValidator(vd.validator.value)))
    ensures r.Failure? ==> r.error.key == Some(fieldName) || r.error == CompileError(None, NoValidatorKey)
  {
    if vd.validator.None? then Failure(CompileError(None, NoValidatorKey))
    else
      var path := vd.validator.value;
      match env.locate(path)
      case None => Failure(CompileError(Some(fieldName), CannotImportValidator(path)))
      case Some(cls) =>
        match env.construct(cls, vd.args, vd.kwargs, [])
        case Some(message) => Failure(CompileError(Some(fieldName), ConstructorRaised(message)))
        case None => Success(Instance(cls, vd.args, vd.kwargs, []))
  }

  /** `_build_validators`: every validator is built in declaration order and
      the first failure stops the build. */
  function BuildValidators(env: Env, fieldName: string, vds: seq<ValidatorDefn>): (r: Result<seq<Instance>, CompileError>)
    ensures r.Success? <==> forall i :: 0 <= i < |vds| ==> BuildValidator(env, fieldName, vds[i]).Success?
    ensures r.Success? ==> |r.value| == |vds|
    ensures r.Success? ==> forall i :: 0 <= i < |vds| ==> r.value[i] == BuildValidator(env, fieldName, vds[i]).value
    ensures r.Failure? ==> (exists i :: 0 <= i < |vds|
                              && (forall j :: 0 <= j < i ==> BuildValidator(env, fieldName, vds[j]).Success?)
                              && BuildValidator(env, fieldName, vds[i]) == Failure(r.error))
  {
    MapUntilFailure((vd: ValidatorDefn) => BuildValidator(env, fieldName, vd), vds)
  }

  /** `_parse_validate_method`: hook source is accepted only when executing it
      binds `validate_method` to a function. Execution errors, a missing
      binding and a binding to something else are all failures. */
  function ParseValidateMethod(env: Env, src: Value): (r: Result<Hook, string>)
    ensures r.Success? <==> env.exec(src).Ran? && env.exec(src).validateMethod.Some?
                            && env.exec(src).validateMethod.value.FunctionObject?
    ensures r.Success? ==> env.exec(src) == Ran(Some(FunctionObject(r.value)))
    ensures env.exec(src) == Ran(Some(OtherObject)) ==> r == Failure("Not a function")
  {
    match env.exec(src)
    case Raised(message) => Failure(message)
    case Ran(None) => Failure("'validate_method'")
    case Ran(Some(OtherObject)) => Failure("Not a function")
    case Ran(Some(FunctionObject(h))) => Success(h)
  }
}

=== FILE: runtime.dfy ===
/** What the compiler produces, and the parts of the host it cannot see.

    A built field or validator is recorded as the constructor call that made
    it: the class and the arguments it was called with. A built serializer class
    is its name and its class namespace, the mapping of attribute names to
    field objects and validation hooks that the metaclass assembles.

    The host's lookup and execution facilities are oracles gathered in `Env`:
    the field registry (attribute lookup on the REST framework's serializers
    module), dotted-path lookup (`pydoc.locate`), constructor calls (which may
    raise) and the execution of hook source text. */
module Runtime {
  import opened Wrappers
  import opened Document

  /** A validation hook: a function object obtained by executing hook source. */
  datatype Hook = Hook(id: nat)

  /** A class the compiler can instantiate: either one of the host's classes,
      identified by its qualified name, or a serializer class built earlier
      from the same document. */
  datatype Callable =
    | External(qualname: string)
    | Nested(serializer: SerializerClass)

  /** An object made by calling `cls(*args, **kwargs)`. The keyword arguments
      are `kwargs`, values taken from the document, together with
      `validators=validators` when the compiler built a non-empty list of
      validator objects for a field (`kwargs` then has no `validators` key). */
  datatype Instance = Instance(cls: Callable, args: seq<Value>, kwargs: map<string, Value>, validators: seq<Instance>)

  /** An entry of a class namespace. */
  datatype Attr =
    | FieldAttr(field: Instance)
    | HookAttr(hook: Hook)

  /** A serializer class built from one serializer definition. */
  datatype SerializerClass = SerializerClass(name: string, namespace: map<string, Attr>)

  /** What a Python object bound to `validate_method` turned out to be. */
  datatype Binding =
    | FunctionObject(hook: Hook)
    | OtherObject

  /** The outcome of executing hook source text in a fresh namespace: either it
      raised, or it ran and left `validate_method` bound or unbound. */
  datatype ExecOutcome =
    | Raised(message: string)
    | Ran(validateMethod: Option<Binding>)

  /** The host facilities the compiler calls.
      - `registry(t)`: the attribute `t` of the REST framework's serializers
        module when it exists and is truthy;
      - `locate(p)`: the object found at dotted path `p` when it is found
        and truthy;
      - `construct(c, args, kwargs, validators)`: `Some(message)` when the
        constructor call that `Instance(c, args, kwargs, validators)` records
        raises, `None` when it succeeds;
      - `exec(src)`: the outcome of executing `src`. */
  datatype Env = Env(
    registry: string -> Option<Callable>,
    locate: string -> Option<Callable>,
    construct: (Callable, seq<Value>, map<string, Value>, seq<Instance>) -> Option<string>,
    exec: Value -> ExecOutcome)

  /** The three field classes a definition may not use: list-valued,
      mapping-valued and method-computed fields. */
  const ListField: Callable := External("rest_framework.fields.ListField")
  const DictField: Callable := External("rest_framework.fields.DictField")
  const SerializerMethodField: Callable := External("rest_framework.fields.SerializerMethodField")

  predicate NotAvailable(c: Callable) {
    c == ListField || c == DictField || c == SerializerMethodField
  }

  /** An environment whose registry knows the three refused field classes
      under their bare names, as the REST framework's serializers module does. */
  predicate KnowsRefusedFields(env: Env) {
    && env.registry("ListField") == Some(ListField)
    && env.registry("DictField") == Some(DictField)
    && env.registry("SerializerMethodField") == Some(SerializerMethodField)
  }
}

=== FILE: traverse.dfy ===
/** Applying a fallible step to every element of a sequence in order and
    stopping at the first failure: the shape of every "for each definition,
    build it or raise" loop in the compiler. */
module Traverse {
  import opened Wrappers

  /** The step succeeds on every element of `xs[..k]`. */
  predicate AllSucceed<A, B, E>(f: A --> Result<B, E>, xs: seq<A>, k: int)
    requires 0 <= k <= |xs|
    requires forall i :: 0 <= i < |xs| ==> f.requires(xs[i])
  {
    forall j :: 0 <= j < k ==> f(xs[j]).Success?
  }

  function MapUntilFailure<A, B, E>(f: A --> Result<B, E>, xs: seq<A>): (r: Result<seq<B>, E>)
    requires forall i :: 0 <= i < |xs| ==> f.requires(xs[i])
    ensures r.Success? <==> AllSucceed(f, xs, |xs|)
    ensures r.Success? ==> |r.value| == |xs|
    ensures r.Success? ==> forall i :: 0 <= i < |xs| ==> r.value[i] == f(xs[i]).value
    ensures r.Failure? ==> (exists i :: 0 <= i < |xs| && AllSucceed(f, xs, i) && f(xs[i]) == Failure(r.error))
  {
    if |xs| == 0 then Success([])
    else
      assert forall i :: 1 <= i < |xs| ==> xs[i] == xs[1..][i - 1];
      match f(xs[0])
      case Failure(e) =>
        assert AllSucceed(f, xs, 0);
        Failure(e)
      case Success(y) =>
        match MapUntilFailure(f, xs[1..])
        case Failure(e) =>
          assert forall k :: 0 <= k < |xs| - 1 && AllSucceed(f, xs[1..], k) ==> AllSucceed(f, xs, k + 1);
          Failure(e)
        case Success(ys) => Success([y] + ys)
  }
}

=== FILE: wrappers.dfy ===
/** Failure-compatible result types used throughout the model: an optional
    value, a value-or-error result, and a pass-or-fail outcome. All three work
    with Dafny's `:-` operator so that a failing stage stops the pipeline the
    way a raised exception does in the modelled program. */
module Wrappers {

  datatype Option<+T> = None | Some(value: T) {
    predicate IsFailure() { None? }

    function PropagateFailure<U>(): Option<U>
      requires None?
    {
      None
    }

    function Extract(): T
      requires Some?
    {
      value
    }

    function GetOr(default: T): T {
      match this
      case Some(v) => v
      case None => default
    }
  }

  datatype Result<+R, +E> = Success(value: R) | Failure(error: E) {
    predicate IsFailure() { Failure? }

    function PropagateFailure<U>(): Result<U, E>
      requires Failure?
    {
      Failure(error)
    }

    function Extract(): R
      requires Success?
    {
      value
    }
  }

  datatype Outcome<+E> = Pass | Fail(error: E) {
    predicate IsFailure() { Fail? }

    function PropagateFailure<U>(): Result<U, E>
      requires Fail?
    {
      Failure(error)
    }
  }
}
